=== FILE: README.md ===
# Preprocessing of two visualisation datasets, in Dafny

This project models the data-preprocessing layer of two course visualisations and proves properties of that model.

**The dialogue table** (`TP2/TP2/src/preprocess.py`) holds one row per spoken line of a play.
- `summarize_lines` counts the lines of every (act, player) pair and computes each pair's share of its act, in percent.
- `replace_others` finds the five players with the most lines over the whole play. In every act it keeps their rows and folds everybody else into one `OTHER` row.
- `clean_names` title-cases the player names.

**The tree-planting table** (`TP3/TP3/src/preprocess.py`) holds one row per planted tree: its neighbourhood (`Arrond_Nom`) and its planting date.
- `filter_years` keeps a range of years.
- `summarize_yearly_counts` counts the trees of every (neighbourhood, date) pair.
- `restructure_df` pivots those counts into a dense neighbourhood × date matrix, with zeros in the empty cells.
- `get_daily_info` gives, for one neighbourhood and year, the number of trees planted on each day. It fills the days between the plantings with zeros.

**How the model represents the tables.**
- A table is a `seq` of records.
- A date is an integer day ordinal, with day 0 being 1970-01-01.
- The calendar year of a date is computed on the proleptic Gregorian calendar (`Calendar`).
- Percentages are exact `real`s.
- The counting group-bys (`groupby(...).size()` or `.count()` at `TP2/TP2/src/preprocess.py:26`, `TP3/TP3/src/preprocess.py:51` and `:96`) are modelled by one generic operation, `Groups.GroupCount`. It sorts the distinct keys, since pandas sorts group keys by default, and counts each key.
- The summing group-by per act (`TP2/TP2/src/preprocess.py:32`) is `Groups.SizeWhere(table, LineSummary.ActIs(a))`: the sum of the group sizes of one act.
- The summing group-by per player (`TP2/TP2/src/preprocess.py:62`) is `OtherPlayers.Players`, the sorted distinct players (through `Groups.SortedKeys`), with `OtherPlayers.PlayerTotal` as each player's sum.
- The loop over the act groups (`TP2/TP2/src/preprocess.py:65`) is `OtherPlayers.Acts`, the sorted distinct acts, with `OtherPlayers.Blocks` producing one block of rows per act in that order.
- The operations themselves:
  - `OtherPlayers.ReplaceOthers` is `replace_others` (`TP2/TP2/src/preprocess.py:38-82`).
  - `OtherPlayers.OtherRow` is the `OTHER` row built at `TP2/TP2/src/preprocess.py:71-76`.
  - `Daily.GetDailyInfo` is `get_daily_info` (`TP3/TP3/src/preprocess.py:79-101`).
  - `LinePipeline.Pipeline` chains `summarize_lines`, `replace_others` and `clean_names`, in that order. It fails with `MissingPlayerColumn` where `clean_names` would raise `KeyError`.
  - Their properties are stated in the lemmas of the table below.

**Modules.**
- `Orders`: strict total orders, code-point string order, lexicographic pairs.
- `Seqs`: counting, distinctness, subsequences, min/max.
- `Groups`: the group-by.
- `Calendar`: years of day ordinals.
- `Lines`, `LineSummary`, `OtherPlayers`, `NameCase`, `LinePipeline`: the dialogue table.
- `Plantings`, `Heatmap`, `Daily`: the planting table.
- `Results`: the outcome of an operation that can fail.

**Behaviour the model pins down, as the code has it:**
- **Counting and pivoting are per date, not per year.** `summarize_yearly_counts` groups on the full `Date_Plantation` (`TP3/TP3/src/preprocess.py:51`), and `restructure_df` pivots on it (`:74`). So there is one row, and one heatmap column, per planting date. This is despite those functions' docstrings (`:39-41`, `:59-63`), which speak of neighbourhoods and years. `Plantings.YearlyCount.date` is therefore a day ordinal.
- **Row order is sorted, not first-seen.** Grouped rows come out in ascending key order, because `groupby` sorts its keys. This holds for acts then players, and for neighbourhood names then dates. It is not the order in which the keys are first seen.
- **Ties in the top five go to the earlier name.** `nlargest(5)` runs over the per-player totals, whose index is sorted by name. On equal totals it keeps the first, so the alphabetically earlier name wins.
- **The `OTHER` row is always emitted.** `replace_others` adds it to every act, even when no player of the act is folded into it; it then holds 0 lines and 0 percent.
- **The daily series spans the observed dates.** It runs from the earliest matching planting to the latest, not over the whole year. No matching planting gives an empty table.
- **A duplicate cell makes the pivot fail.** Two rows with the same (neighbourhood, date) make `pivot` raise, so `Restructure` returns `Failure(DuplicateEntries)`.

## Model

| member | source | states |
|---|---|---|
| Orders.StrLessIsOrder | TP2/TP2/src/preprocess.py:26 | The string order used to sort players and neighbourhoods is irreflexive, transitive and total. |
| Orders.LexIsOrder | TP2/TP2/src/preprocess.py:26 | Comparing pairs by their first component, then by their second, is a strict total order whenever both component orders are. |
| Groups.GroupCount | TP2/TP2/src/preprocess.py:26 | The group-by yields keys in strictly ascending order. The keys are exactly the distinct values of the input. Each group's size is the number of occurrences of its key, and at least 1. |
| Groups.SortedKeys | TP2/TP2/src/preprocess.py:26 | The distinct keys of a column are strictly ascending and are exactly the column's values. |
| Groups.Tally | TP2/TP2/src/preprocess.py:26 | Tallying keeps the given keys in their order. Each group's size is its key's number of occurrences. |
| Groups.TallyConserves | TP2/TP2/src/preprocess.py:26 | Tallying distinct keys that cover the input conserves rows: for any condition on keys, the matching groups hold exactly the matching rows. |
| Groups.GroupCountConserves | TP2/TP2/src/preprocess.py:26 | For any condition on keys, the groups whose key satisfies it hold exactly as many rows as the input has rows satisfying it. |
| Groups.LookupGroupCount | TP3/TP3/src/preprocess.py:96 | The size found for a key is its number of occurrences in the input, and 0 for a key that never occurs. |
| Calendar.YearOf | TP3/TP3/src/preprocess.py:35 | The year of a day is the year whose January 1st is at or before the day and whose successor's January 1st is after it. |
| Calendar.YearOfCharacterized | TP3/TP3/src/preprocess.py:35 | A day falls in year `y` if and only if it lies between January 1st of `y` and January 1st of `y + 1`. |
| Calendar.YearOfMonotone | TP3/TP3/src/preprocess.py:95 | A later day never falls in an earlier year. |
| Calendar.YearRangeAsDays | TP3/TP3/src/preprocess.py:35 | A day's year lies in `[start, end]` if and only if the day lies between January 1st of `start` and January 1st of `end + 1`. |
| Calendar.EpochAnchors | TP3/TP3/src/preprocess.py:35 | Day 0 is January 1st 1970, day 10957 is January 1st 2000, and day −1 falls in 1969. |
| LineSummary.SummarizeLines | TP2/TP2/src/preprocess.py:26-34 | The summary has one row per distinct (act, player) pair of the script, in ascending (act, player) order. Its `LineCount` is the number of script lines with that pair, and at least 1. |
| LineSummary.WithPercents | TP2/TP2/src/preprocess.py:32 | Adding the percentage column keeps one row per group, with the group's key and count. |
| LineSummary.WithPercentsInAct | TP2/TP2/src/preprocess.py:32 | An act's rows add up to the act's group sizes. Each holds 100 × its count / the act's total in the grouped table. |
| LineSummary.PercentsAddUp | TP2/TP2/src/preprocess.py:32 | Shares of one positive total add up to the share of the sum of their parts. |
| LineSummary.TableSharesAddUp | TP2/TP2/src/preprocess.py:32 | For any grouped table with non-empty groups, the shares of every act that has a group add up to exactly 100. |
| LineSummary.ActSharesAddUp | TP2/TP2/src/preprocess.py:32 | The summarized percentages of an act with lines add up to exactly 100. |
| LineSummary.SummarizeActTotals | TP2/TP2/src/preprocess.py:26-32 | The `LineCount` values of an act add up to the number of script lines in that act. |
| LineSummary.SummarizePercents | TP2/TP2/src/preprocess.py:32 | Each row's `LinePercent` is 100 × its `LineCount` / the number of lines of its act, and that number is positive. |
| LineSummary.SummarizePercentsAddUp | TP2/TP2/src/preprocess.py:32 | The percentages of an act that has lines add up to exactly 100. An act without lines has no row. |
| OtherPlayers.Players | TP2/TP2/src/preprocess.py:62 | The candidates for the top set are the table's distinct players, in ascending name order, as the index of `groupby('Player')`. |
| OtherPlayers.Best | TP2/TP2/src/preprocess.py:62 | The chosen player is a candidate who outranks every other candidate: more lines in total, or as many and an earlier name. |
| OtherPlayers.TopK | TP2/TP2/src/preprocess.py:62 | The selection has `min(k, #candidates)` distinct candidates, each outranking every candidate left out. |
| OtherPlayers.Acts | TP2/TP2/src/preprocess.py:65 | The loop visits the table's distinct acts, each once and in ascending order, as `groupby('Act')` yields them. |
| OtherPlayers.TopPlayers | TP2/TP2/src/preprocess.py:62 | The top set has `min(5, #players)` distinct players of the table. Each of them outranks, on play-wide totals, every player left out. |
| OtherPlayers.Keep | TP2/TP2/src/preprocess.py:67-69 | The rows selected for an act are exactly that act's rows whose player is in, or not in, the top set. Each such row appears as many times as in the table, and every other row appears 0 times. They keep their table order. |
| OtherPlayers.KeepSplitsAct | TP2/TP2/src/preprocess.py:67-69 | The kept and the folded rows of an act together hold all of the act's lines and percent. |
| OtherPlayers.KeptPlayersDistinct | TP2/TP2/src/preprocess.py:67 | With one row per (act, player), the kept rows of an act have distinct players. |
| OtherPlayers.ActBlockConserves | TP2/TP2/src/preprocess.py:67-78 | An act's output block, kept rows plus `OTHER`, holds exactly the act's lines and percent. |
| OtherPlayers.BlocksInAct | TP2/TP2/src/preprocess.py:65-80 | Over distinct acts, the rows of act `a` in the concatenated blocks are `a`'s block if `a` is listed, and none otherwise. |
| OtherPlayers.CollapseShape | TP2/TP2/src/preprocess.py:67-78 | For any fixed top set, a listed act's rows end with one `OTHER` row holding the sums of the folded rows. The rows before it are the top players' rows in table order. |
| OtherPlayers.CollapseConserves | TP2/TP2/src/preprocess.py:67-78 | For any fixed top set, over acts covering the table, every act's total lines and percent are kept. |
| OtherPlayers.CollapseBound | TP2/TP2/src/preprocess.py:65-80 | With one row per (act, player), an act's output has at most one row per top player, plus `OTHER`. |
| OtherPlayers.BlocksOrdered | TP2/TP2/src/preprocess.py:65-80 | Blocks laid out over ascending acts list the acts in ascending order. |
| OtherPlayers.ReplaceOthersInAct | TP2/TP2/src/preprocess.py:65-80 | The output rows of an act are that act's kept rows followed by its `OTHER` row. An act absent from the input has no output row. |
| OtherPlayers.ReplaceOthersShape | TP2/TP2/src/preprocess.py:67-78 | Every act of the input ends with exactly one `OTHER` row, placed last. Its `LineCount` and `LinePercent` are the sums over the act's folded rows. The rows before it are the act's top-player rows, unchanged and in table order. |
| OtherPlayers.ReplaceOthersConserves | TP2/TP2/src/preprocess.py:67-78 | Folding keeps every act's total `LineCount` and total `LinePercent`. |
| OtherPlayers.ReplaceOthersBound | TP2/TP2/src/preprocess.py:62-80 | With one input row per (act, player), every act has at most six output rows. |
| OtherPlayers.ReplaceOthersOrdered | TP2/TP2/src/preprocess.py:65-80 | The output lists the acts in ascending order. |
| NameCase.Title | TP2/TP2/src/preprocess.py:94 | Title-casing keeps the length. A character after a cased character becomes lower case, and any other character becomes upper case. |
| NameCase.TitleWords | TP2/TP2/src/preprocess.py:94 | Each word starts with a capital and continues in lower case. Letters stay letters, and everything else is left as it was. |
| NameCase.TitleIdempotent | TP2/TP2/src/preprocess.py:94 | Title-casing twice is the same as title-casing once. |
| NameCase.CleanNames | TP2/TP2/src/preprocess.py:94 | Only the `Player` column changes, to its title-cased form and at its length. The number of rows, acts, counts and percentages are kept. |
| NameCase.CleanNamesIdempotent | TP2/TP2/src/preprocess.py:94 | Cleaning the names twice is the same as cleaning them once. |
| LinePipeline.CleanNamesInAct | TP2/TP2/src/preprocess.py:94 | Cleaning the names gives the same result before or after selecting an act. |
| LinePipeline.CleanNamesKeepsSums | TP2/TP2/src/preprocess.py:94 | Cleaning the names keeps the sums of `LineCount` and of `LinePercent`. |
| LinePipeline.PipelineFailsOnEmpty | TP2/TP2/src/preprocess.py:63-94 | The chained steps fail exactly on a script with no lines. `replace_others` then returns a frame with no columns, and `clean_names` cannot read its `Player` column. |
| LinePipeline.PipelinePerAct | TP2/TP2/src/preprocess.py:26-94 | The chained steps fail exactly on a script with no lines. Otherwise each act has at most six rows. Their counts add up to the act's number of lines, and their percentages add up to 100 when it has lines. An act without lines has no row. |
| LinePipeline.PipelineOrdered | TP2/TP2/src/preprocess.py:65-94 | When the chained steps succeed, the final dialogue table lists the acts in ascending order. |
| Plantings.FilterYears | TP3/TP3/src/preprocess.py:35 | The filter keeps exactly the rows whose year lies in `[start, end]`, each as often as in the input. It keeps them in table order. |
| Plantings.FilterYearsByDays | TP3/TP3/src/preprocess.py:35 | A row passes the filter if and only if it is in the table and planted between January 1st of `start` and January 1st of `end + 1`. |
| Plantings.SummarizeYearlyCounts | TP3/TP3/src/preprocess.py:51 | The summary has one row per distinct (neighbourhood, date) pair, in ascending order. Its `Counts` is the number of trees with that pair, and at least 1. |
| Plantings.SummarizeYearlyCountsTotal | TP3/TP3/src/preprocess.py:51 | The `Counts` column adds up to the number of trees. |
| Heatmap.Restructure | TP3/TP3/src/preprocess.py:74-76 | The pivot fails if and only if two rows share a (neighbourhood, date) pair. Otherwise it gives a dense matrix over the sorted distinct neighbourhoods and dates. Each cell holds the `Counts` of its pair's row, or 0. |
| Heatmap.CellValueSpec | TP3/TP3/src/preprocess.py:74-76 | A cell holds the `Counts` of the one row for its pair, and 0 when no row has that pair. |
| Heatmap.PivotPlacesEveryRow | TP3/TP3/src/preprocess.py:74 | Every input row appears in the matrix, at its neighbourhood's row and its date's column. |
| Heatmap.PivotZeroFills | TP3/TP3/src/preprocess.py:76 | A cell with no matching input row holds 0. |
| Heatmap.HeatmapCountsTrees | TP3/TP3/src/preprocess.py:51-76 | Pivoting the summarized table never fails. Each cell is the number of trees of its neighbourhood planted on its date. |
| Daily.Matching | TP3/TP3/src/preprocess.py:95 | The selection keeps exactly the rows of the given neighbourhood and year, each as often as in the input. It keeps them in table order. |
| Daily.MatchingSelects | TP3/TP3/src/preprocess.py:95 | A row is selected if and only if it is in the table, of the given neighbourhood and planted in the given year. |
| Daily.Densify | TP3/TP3/src/preprocess.py:99 | The re-sampling is empty if and only if there are no groups. Otherwise it runs over consecutive days from the earliest key to the latest, each day holding its group's size or 0. |
| Daily.DailySeriesSpec | TP3/TP3/src/preprocess.py:96-99 | The daily series is empty if and only if the date list is. Otherwise it has max − min + 1 consecutive days from the earliest date to the latest, each counting that date's occurrences. |
| Daily.DailySeriesCovers | TP3/TP3/src/preprocess.py:99 | Every listed date is a day of the series, at its offset from the first day. |
| Daily.SpanTotal | TP3/TP3/src/preprocess.py:96-99 | Consecutive days that each count their date's occurrences and that span every date add up to the number of dates. |
| Daily.DailySeriesTotal | TP3/TP3/src/preprocess.py:96-99 | The filled-in zeros add nothing: the series' counts add up to the number of dates. |
| Daily.GetDailyInfoCounts | TP3/TP3/src/preprocess.py:95-99 | The daily table is empty if and only if no row matches. Each day counts the matching rows of its date, and the counts add up to the number of matching rows. |
| Daily.GetDailyInfoCovers | TP3/TP3/src/preprocess.py:95-99 | Every matching planting falls on a day of the daily table. |
| Daily.GetDailyInfoInYear | TP3/TP3/src/preprocess.py:95-99 | Every day of the daily table lies in the requested year. |

## Left out

- `NameCase.CleanNames`: `clean_names` overwrites the `Player` column of the frame it is given and returns that same frame (`TP2/TP2/src/preprocess.py:94-96`), so a caller that still holds its argument sees the change. The model returns a new table instead. In the chained steps this makes no difference, because the argument is the fresh frame that `replace_others` returns.
- `LinePipeline.Pipeline`: the order summarize, fold, clean is assumed. The application code that chains the three steps is not part of this model.
- `convert_dates` (`TP3/TP3/src/preprocess.py:17`): string parsing belongs to `pd.to_datetime`. Dates arrive here already as day ordinals.
- **Time of day.** A timestamp that is not at midnight has no counterpart: the daily re-sampling of such timestamps is not modelled.
- **Missing values.** `summarize_lines` counts the non-missing `PlayerLine` values of each group, and `groupby` drops rows whose key is missing. Every value is present in the model, so a group's count is its number of rows.
- **Floating point.** Percentages are exact reals, so the model has no rounding in `LinePercent`. The cells of the pivoted matrix are natural numbers, not the floats that `fillna(0)` leaves.
- `NameCase.Title`: only the ASCII letters are cased. Python's `str.title` also cases other Unicode letters, and some of them change length.
- **Reading and the interface.** CSV loading, the plotting modules, the hover-template modules and the unused `MODE_TO_COLUMN` import are not modelled. They are I/O or presentation over plotting libraries outside this model.
- **Pandas' column bookkeeping.** Index resets, renamed columns and the dropped `Scene` and `Line` columns are only reflected in the shape of the record types.

=== FILE: calendar.dfy ===
/**
 Dates as day ordinals: day 0 is 1970-01-01 and day n is n days later
 (negative before it), on the proleptic Gregorian calendar. `YearOf` is the
 calendar year of a day, the value pandas' `.dt.year` gives for a
 timestamp at midnight.
 */
module Calendar {

  /** The Gregorian leap-year rule. */
  predicate IsLeap(y: int) {
    y % 4 == 0 && (y % 100 != 0 || y % 400 == 0)
  }

  function DaysInYear(y: int): int {
    if IsLeap(y) then 366 else 365
  }

  /** Leap years in [1, y) when y >= 1; the same formula continued below. */
  function LeapsBefore(y: int): int {
    (y - 1) / 4 - (y - 1) / 100 + (y - 1) / 400
  }

  /** Day ordinal of January 1st of year `y`. */
  function YearStart(y: int): int {
    365 * (y - 1970) + LeapsBefore(y) - LeapsBefore(1970)
  }

  /** Consecutive years are exactly one year-length apart. */
  lemma {:induction false} YearStartStep(y: int)
    ensures YearStart(y + 1) == YearStart(y) + DaysInYear(y)
  {
    assert y / 4 - (y - 1) / 4 == if y % 4 == 0 then 1 else 0;
    assert y / 100 - (y - 1) / 100 == if y % 100 == 0 then 1 else 0;
    assert y / 400 - (y - 1) / 400 == if y % 400 == 0 then 1 else 0;
    assert y % 400 == 0 ==> y % 100 == 0;
    assert y % 100 == 0 ==> y % 4 == 0;
  }

  lemma {:induction false} YearStartMonotone(a: int, b: int)
    requires a <= b
    ensures YearStart(a) + 365 * (b - a) <= YearStart(b)
    decreases b - a
  {
    if a < b {
      YearStartMonotone(a, b - 1);
      YearStartStep(b - 1);
    }
  }

  /** Searches upwards from year `y` for the year containing day `d`. */
  function YearUp(d: int, y: int): (r: int)
    requires YearStart(y) <= d
    ensures YearStart(r) <= d < YearStart(r + 1)
    decreases d - YearStart(y)
  {
    YearStartStep(y);
    if d < YearStart(y + 1) then y else YearUp(d, y + 1)
  }

  /** Searches downwards from year `y` for the year containing day `d`. */
  function YearDown(d: int, y: int): (r: int)
    requires d < YearStart(y + 1)
    ensures YearStart(r) <= d < YearStart(r + 1)
    decreases YearStart(y + 1) - d
  {
    YearStartStep(y);
    if YearStart(y) <= d then y else YearDown(d, y - 1)
  }

  /** The calendar year of day `d`: the year whose January 1st is at most `d`
      and whose successor's January 1st is after it. */
  function YearOf(d: int): (y: int)
    ensures YearStart(y) <= d < YearStart(y + 1)
  {
    if d >= YearStart(1970) then YearUp(d, 1970) else YearDown(d, 1969)
  }

  /** A day belongs to year `y` exactly when it lies between January 1st of
      `y` and January 1st of the next year. */
  lemma {:induction false} YearOfCharacterized(d: int, y: int)
    ensures YearOf(d) == y <==> YearStart(y) <= d < YearStart(y + 1)
  {
    var r := YearOf(d);
    if r < y {
      YearStartMonotone(r + 1, y);
    } else if r > y {
      YearStartMonotone(y + 1, r);
    }
  }

  /** Later days never fall in earlier years. */
  lemma {:induction false} YearOfMonotone(d: int, e: int)
    requires d <= e
    ensures YearOf(d) <= YearOf(e)
  {
    var a, b := YearOf(d), YearOf(e);
    if b < a {
      YearStartMonotone(b + 1, a);
    }
  }

  /** Filtering by an inclusive range of years is filtering by a half-open
      range of days: from January 1st of `start` up to January 1st of
      `end + 1`. */
  lemma {:induction false} YearRangeAsDays(d: int, start: int, end: int)
    ensures start <= YearOf(d) <= end <==> YearStart(start) <= d < YearStart(end + 1)
  {
    var y := YearOf(d);
    if start <= y <= end {
      YearStartMonotone(start, y);
      YearStartMonotone(y + 1, end + 1);
    } else if y < start {
      YearStartMonotone(y + 1, start);
    } else {
      YearStartMonotone(end + 1, y);
    }
  }

  /** Anchors of the ordinal: 1970-01-01 is day 0 and 2000-01-01 is day 10957. */
  lemma {:induction false} EpochAnchors()
    ensures YearStart(1970) == 0 && YearStart(2000) == 10957
    ensures YearOf(0) == 1970 && YearOf(-1) == 1969 && YearOf(10957) == 2000
  {
    assert YearStart(1969) == -365 && YearStart(1971) == 365 && YearStart(2001) == 11323;
    YearOfCharacterized(0, 1970);
    YearOfCharacterized(-1, 1969);
    YearOfCharacterized(10957, 2000);
  }
}

=== FILE: daily.dfy ===
/**
 `get_daily_info`: the number of trees planted on each day of one year in
 one neighbourhood.

 The trees of the neighbourhood planted in the year are counted per date
 (a `groupby` on the date, so ascending by date), and the series is then
 re-sampled at a daily frequency with `asfreq('d', fill_value=0)`: every
 day from the first planting date to the last one appears, with 0 for the
 days on which nothing was planted. The days span the first and last
 planting of the selection, not the whole year, and no planting gives an
 empty table.
 */
module Daily {
  import opened Orders
  import opened Seqs
  import opened Groups
  import opened Calendar
  import opened Plantings

  datatype DayCount = DayCount(date: int, counts: nat)

  predicate Matches(t: Tree, arrond: string, year: int) {
    YearOf(t.date) == year && t.arrond == arrond
  }

  /** The rows of neighbourhood `arrond` planted in `year`, in table order. */
  function Matching(trees: seq<Tree>, arrond: string, year: int): (r: seq<Tree>)
    ensures forall t :: t in r ==> Matches(t, arrond, year)
    ensures forall t :: multiset(r)[t] == if Matches(t, arrond, year) then multiset(trees)[t] else 0
    ensures IsSubsequence(r, trees)
  {
    if |trees| == 0 then []
    else
      assert trees == [trees[0]] + trees[1..];
      var rest := Matching(trees[1..], arrond, year);
      if Matches(trees[0], arrond, year) then [trees[0]] + rest else rest
  }

  function DateColumn(trees: seq<Tree>): seq<int> {
    seq(|trees|, i requires 0 <= i < |trees| => trees[i].date)
  }

  /**
   Daily re-sampling of a per-date count: consecutive days from the
   earliest key to the latest, each with the size of its group, or 0.
   */
  function Densify(gs: seq<Group<int>>): (r: seq<DayCount>)
    ensures |r| == 0 <==> |gs| == 0
    ensures |gs| > 0 ==> r[0].date == Min(KeysOf(gs)) && r[|r| - 1].date == Max(KeysOf(gs))
    ensures forall i :: 0 < i < |r| ==> r[i].date == r[i - 1].date + 1
    ensures forall i :: 0 <= i < |r| ==> r[i].counts == Lookup(gs, r[i].date)
  {
    if |gs| == 0 then []
    else
      var lo, hi := Min(KeysOf(gs)), Max(KeysOf(gs));
      assert KeysOf(gs)[0] in KeysOf(gs);
      seq(hi - lo + 1, i requires 0 <= i <= hi - lo => DayCount(lo + i, Lookup(gs, lo + i)))
  }

  /** Counts per date, then re-sampled daily: `get_daily_info` after its filter. */
  function DailySeries(dates: seq<int>): seq<DayCount> {
    IntLessIsOrder();
    Densify(GroupCount(dates, IntLess))
  }

  function GetDailyInfo(trees: seq<Tree>, arrond: string, year: int): seq<DayCount> {
    DailySeries(DateColumn(Matching(trees, arrond, year)))
  }

  /**
   The daily series of a list of dates is empty exactly when the list is;
   otherwise it runs over consecutive days from the earliest date to the
   latest one, each day counting its occurrences in the list.
   */
  lemma {:induction false} DailySeriesSpec(dates: seq<int>)
    ensures var r := DailySeries(dates);
            && (|r| == 0 <==> |dates| == 0)
            && (|r| > 0 ==> r[0].date == Min(dates) && r[|r| - 1].date == Max(dates))
            && (|r| > 0 ==> |r| == Max(dates) - Min(dates) + 1)
            && (forall i :: 0 <= i < |r| ==> r[i].date == r[0].date + i)
            && (forall i :: 0 <= i < |r| ==> r[i].counts == Count(dates, r[i].date))
  {
    IntLessIsOrder();
    var gs := GroupCount(dates, IntLess);
    var r := DailySeries(dates);
    assert r == Densify(gs);
    if |dates| > 0 {
      assert dates[0] in KeysOf(gs);
      SameElementsSameExtremes(dates, KeysOf(gs));
    }
    forall i | 0 <= i < |r| ensures r[i].date == r[0].date + i && r[i].counts == Count(dates, r[i].date) {
      ConsecutiveFrom(r, i);
      LookupGroupCount(dates, IntLess, r[i].date);
    }
  }

  lemma {:induction false} ConsecutiveFrom(r: seq<DayCount>, i: nat)
    requires i < |r|
    requires forall j :: 0 < j < |r| ==> r[j].date == r[j - 1].date + 1
    ensures r[i].date == r[0].date + i
  {
    if i > 0 {
      ConsecutiveFrom(r, i - 1);
    }
  }

  /** Every date of the list is a day of the series, at its offset from the earliest. */
  lemma {:induction false} DailySeriesCovers(dates: seq<int>, d: int)
    requires d in dates
    ensures var r := DailySeries(dates);
            0 <= d - r[0].date < |r| && r[d - r[0].date].date == d
  {
    DailySeriesSpec(dates);
  }

  function DayTotal(r: seq<DayCount>): nat {
    if |r| == 0 then 0 else r[0].counts + DayTotal(r[1..])
  }

  /** The predicate every day satisfies, for totals over whole tables. */
  const AllDays: int -> bool := (d: int) => true

  function Days(lo: int, n: nat): (ds: seq<int>)
    ensures |ds| == n && forall i :: 0 <= i < n ==> ds[i] == lo + i
  {
    seq(n, i requires 0 <= i < n => lo + i)
  }

  lemma {:induction false} TotalOfDays(r: seq<DayCount>, gs: seq<Group<int>>)
    requires |r| == |gs|
    requires forall i :: 0 <= i < |r| ==> r[i].counts == gs[i].size
    ensures DayTotal(r) == SizeWhere(gs, AllDays)
  {
    if |r| > 0 {
      TotalOfDays(r[1..], gs[1..]);
    }
  }

  lemma {:induction false} DaysNoDup(lo: int, n: nat)
    ensures NoDup(Days(lo, n))
  {
  }

  /** A span of consecutive days counting each date is the tally of the dates over those days. */
  lemma {:induction false} SpanIsTally(r: seq<DayCount>, dates: seq<int>)
    requires |r| > 0
    requires forall i :: 0 <= i < |r| ==> r[i].date == r[0].date + i && r[i].counts == Count(dates, r[i].date)
    ensures DayTotal(r) == SizeWhere(Tally(Days(r[0].date, |r|), dates), AllDays)
  {
    var tally := Tally(Days(r[0].date, |r|), dates);
    assert forall i :: 0 <= i < |r| ==> r[i].counts == tally[i].size;
    TotalOfDays(r, tally);
  }

  /** Tallying over days that hold every date counts every date. */
  lemma {:induction false} TallyOverDays(lo: int, n: nat, dates: seq<int>)
    requires forall d :: d in dates ==> 0 <= d - lo < n
    ensures SizeWhere(Tally(Days(lo, n), dates), AllDays) == |dates|
  {
    var days := Days(lo, n);
    forall d | d in dates ensures d in days {
      assert days[d - lo] == d;
    }
    DaysNoDup(lo, n);
    TallyConserves(days, dates, AllDays);
    CountWhereAll(dates, AllDays);
  }

  /** Consecutive days counting the occurrences of each date, over a span
      holding every date, add up to the number of dates. */
  lemma {:induction false} SpanTotal(r: seq<DayCount>, dates: seq<int>)
    requires |r| > 0
    requires forall i :: 0 <= i < |r| ==> r[i].date == r[0].date + i && r[i].counts == Count(dates, r[i].date)
    requires forall d :: d in dates ==> 0 <= d - r[0].date < |r|
    ensures DayTotal(r) == |dates|
  {
    SpanIsTally(r, dates);
    TallyOverDays(r[0].date, |r|, dates);
  }

  /** Filling in the missing days adds nothing: the counts add up to the
      length of the list. */
  lemma {:induction false} DailySeriesTotal(dates: seq<int>)
    ensures DayTotal(DailySeries(dates)) == |dates|
  {
    var r := DailySeries(dates);
    DailySeriesSpec(dates);
    if |r| > 0 {
      forall d | d in dates ensures 0 <= d - r[0].date < |r| {
        DailySeriesCovers(dates, d);
      }
      SpanTotal(r, dates);
    }
  }

  /** The dates of the matching rows all fall in the year asked for. */
  lemma {:induction false} HitDates(trees: seq<Tree>, arrond: string, year: int)
    ensures forall d :: d in DateColumn(Matching(trees, arrond, year)) ==> YearOf(d) == year
    ensures forall t :: t in Matching(trees, arrond, year) ==> t.date in DateColumn(Matching(trees, arrond, year))
  {
    var hits := Matching(trees, arrond, year);
    var dates := DateColumn(hits);
    forall d | d in dates ensures YearOf(d) == year {
      var k :| 0 <= k < |dates| && dates[k] == d;
      assert hits[k] in hits;
    }
    forall t | t in hits ensures t.date in dates {
      var k :| 0 <= k < |hits| && hits[k] == t;
      assert dates[k] == t.date;
    }
  }

  /** Days between two days of one year are in that year. */
  lemma {:induction false} SpanWithinYear(r: seq<DayCount>, year: int)
    requires |r| > 0
    requires forall i :: 0 <= i < |r| ==> r[i].date == r[0].date + i
    requires YearOf(r[0].date) == year && YearOf(r[|r| - 1].date) == year
    ensures forall i :: 0 <= i < |r| ==> YearOf(r[i].date) == year
  {
    forall i | 0 <= i < |r| ensures YearOf(r[i].date) == year {
      YearOfMonotone(r[0].date, r[i].date);
      YearOfMonotone(r[i].date, r[|r| - 1].date);
    }
  }

  /**
   The daily table of one neighbourhood and year is empty exactly when no
   row matches, each day counts the matching rows of its date, and the
   counts add up to the number of matching rows.
   */
  lemma {:induction false} GetDailyInfoCounts(trees: seq<Tree>, arrond: string, year: int)
    ensures var r := GetDailyInfo(trees, arrond, year);
            var hits := Matching(trees, arrond, year);
            && (|r| == 0 <==> |hits| == 0)
            && (forall i :: 0 <= i < |r| ==> r[i].counts == Count(DateColumn(hits), r[i].date))
            && DayTotal(r) == |hits|
  {
    var dates := DateColumn(Matching(trees, arrond, year));
    assert GetDailyInfo(trees, arrond, year) == DailySeries(dates);
    DailySeriesSpec(dates);
    DailySeriesTotal(dates);
  }

  /** Every matching planting falls on a day of the table, at its offset from the first day. */
  lemma {:induction false} GetDailyInfoCovers(trees: seq<Tree>, arrond: string, year: int, t: Tree)
    requires t in Matching(trees, arrond, year)
    ensures var r := GetDailyInfo(trees, arrond, year);
            0 <= t.date - r[0].date < |r| && r[t.date - r[0].date].date == t.date
  {
    var dates := DateColumn(Matching(trees, arrond, year));
    assert GetDailyInfo(trees, arrond, year) == DailySeries(dates);
    HitDates(trees, arrond, year);
    DailySeriesCovers(dates, t.date);
  }

  /** Every day of the table lies in the requested year, although the days
      run only from the first matching planting to the last. */
  lemma {:induction false} GetDailyInfoInYear(trees: seq<Tree>, arrond: string, year: int)
    ensures var r := GetDailyInfo(trees, arrond, year);
            forall i :: 0 <= i < |r| ==> YearOf(r[i].date) == year
  {
    var dates := DateColumn(Matching(trees, arrond, year));
    var r := DailySeries(dates);
    assert GetDailyInfo(trees, arrond, year) == r;
    DailySeriesSpec(dates);
    HitDates(trees, arrond, year);
    if |r| > 0 {
      SpanWithinYear(r, year);
    }
  }

  /** A row is selected exactly when it is of the neighbourhood and year asked for. */
  lemma {:induction false} MatchingSelects(trees: seq<Tree>, arrond: string, year: int, t: Tree)
    ensures t in Matching(trees, arrond, year) <==> t in trees && t.arrond == arrond && YearOf(t.date) == year
  {
    var r := Matching(trees, arrond, year);
    assert t in r <==> multiset(r)[t] > 0;
    assert t in trees <==> multiset(trees)[t] > 0;
  }
}

=== FILE: groups.dfy ===
/**
 Group-by-and-count over a column of keys, the operation behind pandas'
 `groupby(...).size()` and `groupby(...).count()` on a column without
 missing values.

 The groups come out sorted by key (pandas sorts group keys by default),
 one per distinct key, each carrying the number of rows with that key.
 The conservation law `GroupCountConserves` says that summing the group
 sizes over any set of keys gives back the number of rows whose key is in
 that set; with the set of all keys it is the row count.
 */
module Groups {
  import opened Orders
  import opened Seqs

  /** Inserts `k` into a sorted duplicate-free key list, keeping it sorted. */
  function Insert<K(==,!new)>(ks: seq<K>, k: K, less: (K, K) -> bool): (r: seq<K>)
    requires StrictTotalOrder(less) && Sorted(ks, less)
    ensures Sorted(r, less)
    ensures forall x :: x in r <==> x in ks || x == k
  {
    if |ks| == 0 then [k]
    else if k == ks[0] then ks
    else if less(k, ks[0]) then [k] + ks
    else
      var rest := Insert(ks[1..], k, less);
      assert forall x :: x in rest ==> less(ks[0], x);
      [ks[0]] + rest
  }

  /** The distinct values of `xs`, in ascending order: the group keys. */
  function SortedKeys<K(==,!new)>(xs: seq<K>, less: (K, K) -> bool): (r: seq<K>)
    requires StrictTotalOrder(less)
    ensures Sorted(r, less)
    ensures forall x :: x in r <==> x in xs
  {
    if |xs| == 0 then [] else Insert(SortedKeys(xs[1..], less), xs[0], less)
  }

  /** One group of a grouped table: its key and its number of rows. */
  datatype Group<K> = Group(key: K, size: nat)

  function KeysOf<K>(gs: seq<Group<K>>): seq<K> {
    seq(|gs|, i requires 0 <= i < |gs| => gs[i].key)
  }

  /** The group of each key in `ks`, sized by its occurrences in `xs`. */
  function Tally<K(==)>(ks: seq<K>, xs: seq<K>): (gs: seq<Group<K>>)
    ensures KeysOf(gs) == ks
    ensures forall i :: 0 <= i < |gs| ==> gs[i].size == Count(xs, ks[i])
  {
    if |ks| == 0 then [] else [Group(ks[0], Count(xs, ks[0]))] + Tally(ks[1..], xs)
  }

  /**
   Groups the key column `xs`: one group per distinct key, in ascending
   key order, sized by the number of rows carrying that key.
   */
  function GroupCount<K(==,!new)>(xs: seq<K>, less: (K, K) -> bool): (gs: seq<Group<K>>)
    requires StrictTotalOrder(less)
    ensures Sorted(KeysOf(gs), less)
    ensures forall k :: k in KeysOf(gs) <==> k in xs
    ensures forall i :: 0 <= i < |gs| ==> gs[i].size == Count(xs, gs[i].key) && gs[i].size >= 1
  {
    var ks := SortedKeys(xs, less);
    var gs := Tally(ks, xs);
    assert KeysOf(gs) == ks;
    assert forall i :: 0 <= i < |gs| ==> gs[i].key == ks[i] && ks[i] in multiset(xs) by {
      forall i | 0 <= i < |gs| ensures gs[i].key == ks[i] && ks[i] in multiset(xs) {
        assert KeysOf(gs)[i] == gs[i].key;
        assert ks[i] in ks;
        assert ks[i] in xs;
      }
    }
    gs
  }

  /** Total size of the groups whose key satisfies `P`. */
  function SizeWhere<K>(gs: seq<Group<K>>, P: K -> bool): nat {
    if |gs| == 0 then 0
    else (if P(gs[0].key) then gs[0].size else 0) + SizeWhere(gs[1..], P)
  }

  /** Size of the first group with key `k`, and 0 when there is none. */
  function Lookup<K(==)>(gs: seq<Group<K>>, k: K): nat {
    if |gs| == 0 then 0
    else if gs[0].key == k then gs[0].size
    else Lookup(gs[1..], k)
  }

  lemma {:induction false} TallyOfNothing<K>(ks: seq<K>, P: K -> bool)
    ensures SizeWhere(Tally(ks, []), P) == 0
  {
    if |ks| > 0 {
      TallyOfNothing(ks[1..], P);
    }
  }

  /** Removing the first row removes one from exactly the group holding it. */
  lemma {:induction false} TallyStep<K>(ks: seq<K>, xs: seq<K>, P: K -> bool)
    requires |xs| > 0 && NoDup(ks)
    ensures SizeWhere(Tally(ks, xs), P)
         == (if P(xs[0]) && xs[0] in ks then 1 else 0) + SizeWhere(Tally(ks, xs[1..]), P)
  {
    if |ks| > 0 {
      TallyStep(ks[1..], xs, P);
      assert xs[0] == ks[0] ==> xs[0] !in ks[1..];
    }
  }

  lemma {:induction false} TallyConserves<K>(ks: seq<K>, xs: seq<K>, P: K -> bool)
    requires NoDup(ks)
    requires forall x :: x in xs ==> x in ks
    ensures SizeWhere(Tally(ks, xs), P) == CountWhere(xs, P)
  {
    if |xs| == 0 {
      TallyOfNothing(ks, P);
    } else {
      TallyStep(ks, xs, P);
      assert xs[0] in ks;
      TallyConserves(ks, xs[1..], P);
    }
  }

  /**
   Conservation: the groups whose key satisfies `P` hold, in total, exactly
   the rows whose key satisfies `P`.
   */
  lemma {:induction false} GroupCountConserves<K(!new)>(xs: seq<K>, less: (K, K) -> bool, P: K -> bool)
    requires StrictTotalOrder(less)
    ensures SizeWhere(GroupCount(xs, less), P) == CountWhere(xs, P)
  {
    var ks := SortedKeys(xs, less);
    SortedNoDup(ks, less);
    TallyConserves(ks, xs, P);
  }

  lemma {:induction false} LookupTally<K>(ks: seq<K>, xs: seq<K>, k: K)
    ensures Lookup(Tally(ks, xs), k) == if k in ks then Count(xs, k) else 0
  {
    if |ks| > 0 {
      LookupTally(ks[1..], xs, k);
    }
  }

  /** Looking a key up among the groups gives its number of rows, 0 if absent. */
  lemma {:induction false} LookupGroupCount<K(!new)>(xs: seq<K>, less: (K, K) -> bool, k: K)
    requires StrictTotalOrder(less)
    ensures Lookup(GroupCount(xs, less), k) == Count(xs, k)
  {
    LookupTally(SortedKeys(xs, less), xs, k);
  }
}

=== FILE: heatmap.dfy ===
/**
 `restructure_df`: pivots the summarized table into the heatmap matrix,
 one row per neighbourhood, one column per date, the cell holding the
 `Counts` of the matching row and 0 where there is none (`fillna(0)`).

 Rows and columns are the distinct neighbourhoods and dates of the whole
 table, each in ascending order, so every neighbourhood gets a cell for
 every date. Two input rows with the same (neighbourhood, date) make the
 pivot fail, as pandas' `pivot` does.
 */
module Heatmap {
  import opened Orders
  import opened Seqs
  import opened Groups
  import opened Results
  import opened Plantings

  datatype Matrix = Matrix(arronds: seq<string>, dates: seq<int>, cells: seq<seq<nat>>)

  datatype PivotError = DuplicateEntries

  /** No two rows share a (neighbourhood, date) pair. */
  predicate UniquePairs(rows: seq<YearlyCount>) {
    forall i, j :: 0 <= i < j < |rows| ==> (rows[i].arrond, rows[i].date) != (rows[j].arrond, rows[j].date)
  }

  /** The `Counts` of the first row for (`a`, `d`), and 0 when there is none. */
  function CellValue(rows: seq<YearlyCount>, a: string, d: int): nat {
    if |rows| == 0 then 0
    else if rows[0].arrond == a && rows[0].date == d then rows[0].counts
    else CellValue(rows[1..], a, d)
  }

  function ArrondColumn(rows: seq<YearlyCount>): seq<string> {
    seq(|rows|, i requires 0 <= i < |rows| => rows[i].arrond)
  }

  function DateColumn(rows: seq<YearlyCount>): seq<int> {
    seq(|rows|, i requires 0 <= i < |rows| => rows[i].date)
  }

  /** The matrix is dense: one row of cells per neighbourhood, one cell per date. */
  ghost predicate Dense(m: Matrix) {
    |m.cells| == |m.arronds| && forall i :: 0 <= i < |m.cells| ==> |m.cells[i]| == |m.dates|
  }

  function Restructure(rows: seq<YearlyCount>): (r: Result<Matrix, PivotError>)
    ensures r.Failure? <==> !UniquePairs(rows)
    ensures r.Success? ==>
              && Dense(r.value)
              && Sorted(r.value.arronds, StrLess)
              && (forall a :: a in r.value.arronds <==> a in ArrondColumn(rows))
              && Sorted(r.value.dates, IntLess)
              && (forall d :: d in r.value.dates <==> d in DateColumn(rows))
              && (forall i, j :: 0 <= i < |r.value.arronds| && 0 <= j < |r.value.dates| ==>
                    r.value.cells[i][j] == CellValue(rows, r.value.arronds[i], r.value.dates[j]))
  {
    if !UniquePairs(rows) then Failure(DuplicateEntries)
    else
      StrLessIsOrder();
      IntLessIsOrder();
      var arronds := SortedKeys(ArrondColumn(rows), StrLess);
      var dates := SortedKeys(DateColumn(rows), IntLess);
      Success(Matrix(arronds, dates,
        seq(|arronds|, i requires 0 <= i < |arronds| =>
          seq(|dates|, j requires 0 <= j < |dates| => CellValue(rows, arronds[i], dates[j])))))
  }

  /** A cell holds the `Counts` of the row for its pair when there is one
      (and, the pairs being unique, only one), and 0 otherwise. */
  lemma {:induction false} CellValueSpec(rows: seq<YearlyCount>, a: string, d: int)
    requires UniquePairs(rows)
    ensures forall k :: 0 <= k < |rows| && rows[k].arrond == a && rows[k].date == d ==>
              CellValue(rows, a, d) == rows[k].counts
    ensures (forall k :: 0 <= k < |rows| ==> rows[k].arrond != a || rows[k].date != d) ==>
              CellValue(rows, a, d) == 0
  {
    if |rows| > 0 {
      assert UniquePairs(rows[1..]) by {
        forall i, j | 0 <= i < j < |rows[1..]|
          ensures (rows[1..][i].arrond, rows[1..][i].date) != (rows[1..][j].arrond, rows[1..][j].date)
        {
          assert rows[1..][i] == rows[i + 1] && rows[1..][j] == rows[j + 1];
        }
      }
      CellValueSpec(rows[1..], a, d);
      forall k | 1 <= k < |rows| && rows[k].arrond == a && rows[k].date == d
        ensures CellValue(rows, a, d) == rows[k].counts
      {
        assert rows[1..][k - 1] == rows[k];
      }
    }
  }

  /** Every input row lands in its cell: the pivot loses no value. */
  lemma {:induction false} PivotPlacesEveryRow(rows: seq<YearlyCount>, k: nat)
    requires UniquePairs(rows) && k < |rows|
    ensures Restructure(rows).Success?
    ensures var m := Restructure(rows).value;
            exists i, j :: 0 <= i < |m.arronds| && 0 <= j < |m.dates|
              && m.arronds[i] == rows[k].arrond && m.dates[j] == rows[k].date
              && m.cells[i][j] == rows[k].counts
  {
    var m := Restructure(rows).value;
    assert ArrondColumn(rows)[k] == rows[k].arrond;
    assert DateColumn(rows)[k] == rows[k].date;
    assert rows[k].arrond in m.arronds && rows[k].date in m.dates;
    var i :| 0 <= i < |m.arronds| && m.arronds[i] == rows[k].arrond;
    var j :| 0 <= j < |m.dates| && m.dates[j] == rows[k].date;
    CellValueSpec(rows, rows[k].arrond, rows[k].date);
  }

  /** A cell with no matching input row is filled with 0. */
  lemma {:induction false} PivotZeroFills(rows: seq<YearlyCount>, i: nat, j: nat)
    requires UniquePairs(rows)
    requires i < |Restructure(rows).value.arronds| && j < |Restructure(rows).value.dates|
    requires forall k :: 0 <= k < |rows| ==>
               rows[k].arrond != Restructure(rows).value.arronds[i] || rows[k].date != Restructure(rows).value.dates[j]
    ensures Restructure(rows).value.cells[i][j] == 0
  {
    var m := Restructure(rows).value;
    CellValueSpec(rows, m.arronds[i], m.dates[j]);
  }

  /**
   The heatmap of a summarized table: pivoting `summarize_yearly_counts`
   never fails, and each cell holds the number of trees planted in that
   neighbourhood on that date, 0 for a pair that has none.
   */
  lemma {:induction false} HeatmapCountsTrees(trees: seq<Tree>)
    ensures Restructure(SummarizeYearlyCounts(trees)).Success?
    ensures var m := Restructure(SummarizeYearlyCounts(trees)).value;
            forall i, j :: 0 <= i < |m.arronds| && 0 <= j < |m.dates| ==>
              m.cells[i][j] == Count(Pairs(trees), (m.arronds[i], m.dates[j]))
  {
    var rows := SummarizeYearlyCounts(trees);
    ByArrondThenDateIsOrder();
    SortedNoDup(RowPairs(rows), ByArrondThenDate);
    assert UniquePairs(rows) by {
      forall x, y | 0 <= x < y < |rows| ensures (rows[x].arrond, rows[x].date) != (rows[y].arrond, rows[y].date) {
        assert RowPairs(rows)[x] == (rows[x].arrond, rows[x].date);
        assert RowPairs(rows)[y] == (rows[y].arrond, rows[y].date);
      }
    }
    var m := Restructure(rows).value;
    forall i, j | 0 <= i < |m.arronds| && 0 <= j < |m.dates|
      ensures m.cells[i][j] == Count(Pairs(trees), (m.arronds[i], m.dates[j]))
    {
      var key := (m.arronds[i], m.dates[j]);
      CellValueSpec(rows, key.0, key.1);
      if key in Pairs(trees) {
        assert key in RowPairs(rows);
        var k :| 0 <= k < |rows| && RowPairs(rows)[k] == key;
        assert rows[k].arrond == key.0 && rows[k].date == key.1;
      } else {
        assert multiset(Pairs(trees))[key] == 0;
        forall k | 0 <= k < |rows| ensures rows[k].arrond != key.0 || rows[k].date != key.1 {
          assert RowPairs(rows)[k] in RowPairs(rows);
        }
      }
    }
  }
}

=== FILE: line_pipeline.dfy ===
/**
 The dialogue pipeline end to end, taken to apply the three steps in this
 order: the script's lines are summarized per act and player, the players
 outside the five most talkative are folded into one "OTHER" row per act,
 and the names are title-cased. The caller that chains the steps is not
 part of this model.

 `replace_others` builds its result by concatenating onto an empty frame
 with no columns, so when there is no act its result has no `Player`
 column and `clean_names` fails on it.
 */
module LinePipeline {
  import opened Seqs
  import opened Results
  import opened Lines
  import opened LineSummary
  import opened OtherPlayers
  import opened NameCase

  datatype PipelineError = MissingPlayerColumn

  function Pipeline(lines: seq<Line>): Result<seq<LineRow>, PipelineError> {
    var collapsed := ReplaceOthers(SummarizeLines(lines));
    if |collapsed| == 0 then Failure(MissingPlayerColumn) else Success(CleanNames(collapsed))
  }

  /** Every act of a table gives at least its `OTHER` row, so the folded
      table is empty exactly when the table is. */
  lemma {:induction false} BlocksEmpty(rows: seq<LineRow>, top: seq<string>, acts: seq<int>)
    ensures |Blocks(rows, top, acts)| == 0 <==> |acts| == 0
  {
  }

  /** The pipeline fails exactly on a script with no lines. */
  lemma {:induction false} PipelineFailsOnEmpty(lines: seq<Line>)
    ensures Pipeline(lines).Failure? <==> |lines| == 0
  {
    var summary := SummarizeLines(lines);
    var acts := Acts(summary);
    BlocksEmpty(summary, TopPlayers(summary), acts);
    if |lines| > 0 {
      assert Pairs(lines)[0] in Pairs(lines);
      assert RowPairs(summary)[0] in RowPairs(summary);
      assert ActColumn(summary)[0] in acts;
    }
  }

  /** The summarized table has one row per (act, player) pair. */
  lemma {:induction false} SummaryPairsUnique(lines: seq<Line>)
    ensures UniquePairs(SummarizeLines(lines))
  {
    var rows := SummarizeLines(lines);
    ByActThenPlayerIsOrder();
    SortedNoDup(RowPairs(rows), ByActThenPlayer);
    forall i, j | 0 <= i < j < |rows| ensures (rows[i].act, rows[i].player) != (rows[j].act, rows[j].player) {
      assert RowPairs(rows)[i] == (rows[i].act, rows[i].player);
      assert RowPairs(rows)[j] == (rows[j].act, rows[j].player);
    }
  }

  lemma {:induction false} CleanNamesConcat(x: seq<LineRow>, y: seq<LineRow>)
    ensures CleanNames(x + y) == CleanNames(x) + CleanNames(y)
  {
    assert forall i :: 0 <= i < |x| + |y| ==> (x + y)[i] == if i < |x| then x[i] else y[i - |x|];
  }

  /** Title-casing the names commutes with selecting an act. */
  lemma {:induction false} CleanNamesInAct(rows: seq<LineRow>, a: int)
    ensures InAct(CleanNames(rows), a) == CleanNames(InAct(rows, a))
  {
    if |rows| > 0 {
      var c := CleanNames(rows);
      assert c[0].act == rows[0].act;
      assert c[1..] == CleanNames(rows[1..]);
      CleanNamesInAct(rows[1..], a);
      if rows[0].act == a {
        CleanNamesConcat([rows[0]], InAct(rows[1..], a));
        assert CleanNames([rows[0]]) == [c[0]];
      }
    }
  }

  /** Title-casing the names keeps both sums. */
  lemma {:induction false} CleanNamesKeepsSums(rows: seq<LineRow>)
    ensures SumCount(CleanNames(rows)) == SumCount(rows)
    ensures SumPercent(CleanNames(rows)) == SumPercent(rows)
  {
    if |rows| > 0 {
      assert CleanNames(rows)[1..] == CleanNames(rows[1..]);
      CleanNamesKeepsSums(rows[1..]);
    }
  }

  /**
   In the final table each act with lines has at most six rows, whose
   counts add up to the act's number of lines and whose percentages add up
   to 100; an act without lines has no row. A script without lines makes
   the pipeline fail.
   */
  lemma {:induction false} PipelinePerAct(lines: seq<Line>, a: int)
    ensures Pipeline(lines).Failure? <==> |lines| == 0
    ensures var p := Pipeline(lines);
            p.Success? ==>
              && |InAct(p.value, a)| <= TopCount + 1
              && SumCount(InAct(p.value, a)) == ActLines(lines, a)
              && (ActLines(lines, a) > 0 ==> SumPercent(InAct(p.value, a)) == 100.0)
              && (ActLines(lines, a) == 0 ==> InAct(p.value, a) == [])
  {
    PipelineFailsOnEmpty(lines);
    var summary := SummarizeLines(lines);
    var collapsed := ReplaceOthers(summary);
    CleanNamesInAct(collapsed, a);
    CleanNamesKeepsSums(InAct(collapsed, a));
    SummaryPairsUnique(lines);
    ReplaceOthersBound(summary, a);
    ReplaceOthersConserves(summary, a);
    SummarizeActTotals(lines, a);
    SummarizePercentsAddUp(lines, a);
    if ActLines(lines, a) == 0 {
      ReplaceOthersInAct(summary, a);
    }
  }

  /** The final table lists the acts in ascending order. */
  lemma {:induction false} PipelineOrdered(lines: seq<Line>)
    ensures Pipeline(lines).Success? ==> ActsAscending(Pipeline(lines).value)
  {
    var collapsed := ReplaceOthers(SummarizeLines(lines));
    ReplaceOthersOrdered(SummarizeLines(lines));
    if |collapsed| > 0 {
      var cleaned := CleanNames(collapsed);
      assert forall i :: 0 <= i < |collapsed| ==> cleaned[i].act == collapsed[i].act;
    }
  }
}

=== FILE: line_summary.dfy ===
/**
 `summarize_lines`: groups the script by (Act, Player), counts the lines of
 each group into `LineCount`, and gives each group its share of its act in
 `LinePercent`, the denominator being the act's `LineCount` total in the
 grouped table.

 The groups come out sorted by act and then by player name, one row per
 distinct pair (pandas' default sorted group-by).
 */
module LineSummary {
  import opened Orders
  import opened Seqs
  import opened Groups
  import opened Lines

  /** The (Act, Player) pair a script line is grouped under. */
  function PairOf(l: Line): (int, string) {
    (l.act, l.player)
  }

  function Pairs(lines: seq<Line>): seq<(int, string)> {
    seq(|lines|, i requires 0 <= i < |lines| => PairOf(lines[i]))
  }

  function RowPairs(rows: seq<LineRow>): seq<(int, string)> {
    seq(|rows|, i requires 0 <= i < |rows| => (rows[i].act, rows[i].player))
  }

  /** Group keys compare by act number, then by player name. */
  const ByActThenPlayer: ((int, string), (int, string)) -> bool := Lex(IntLess, StrLess)

  lemma {:induction false} ByActThenPlayerIsOrder()
    ensures StrictTotalOrder(ByActThenPlayer)
  {
    IntLessIsOrder();
    StrLessIsOrder();
    LexIsOrder(IntLess, StrLess);
  }

  /** Selects the group keys of act `a`. */
  function ActIs(a: int): ((int, string)) -> bool {
    (k: (int, string)) => k.0 == a
  }

  /** Number of script lines in act `a`. */
  function ActLines(lines: seq<Line>, a: int): nat {
    if |lines| == 0 then 0
    else (if lines[0].act == a then 1 else 0) + ActLines(lines[1..], a)
  }

  /** `part` as a percentage of `whole`. */
  function Percent(part: nat, whole: nat): real
    requires whole > 0
  {
    (part as real) / (whole as real) * 100.0
  }

  /** A group's act total in a grouped table is at least the group's own size. */
  lemma {:induction false} ActTotalCoversGroup(table: seq<Group<(int, string)>>, g: Group<(int, string)>)
    requires g in table
    ensures SizeWhere(table, ActIs(g.key.0)) >= g.size
  {
    if table[0] != g {
      ActTotalCoversGroup(table[1..], g);
    }
  }

  /** The rows of the grouped table `gs`, each with its share of its act's
      total in `table`. */
  function WithPercents(gs: seq<Group<(int, string)>>, table: seq<Group<(int, string)>>): (rows: seq<LineRow>)
    requires forall i :: 0 <= i < |gs| ==> gs[i] in table && gs[i].size > 0
    ensures |rows| == |gs|
    ensures forall i :: 0 <= i < |rows| ==>
              (rows[i].act, rows[i].player) == gs[i].key && rows[i].count == gs[i].size
  {
    if |gs| == 0 then []
    else
      var g := gs[0];
      ActTotalCoversGroup(table, g);
      [LineRow(g.key.0, g.key.1, g.size, Percent(g.size, SizeWhere(table, ActIs(g.key.0))))]
        + WithPercents(gs[1..], table)
  }

  /**
   The aggregated table: one row per distinct (Act, Player) pair of the
   script, in ascending (act, player) order, whose `LineCount` is the
   number of script lines with that pair.
   */
  function SummarizeLines(lines: seq<Line>): (rows: seq<LineRow>)
    ensures Sorted(RowPairs(rows), ByActThenPlayer)
    ensures forall k :: k in RowPairs(rows) <==> k in Pairs(lines)
    ensures forall i :: 0 <= i < |rows| ==>
              rows[i].count == Count(Pairs(lines), (rows[i].act, rows[i].player)) && rows[i].count >= 1
  {
    ByActThenPlayerIsOrder();
    var gs := GroupCount(Pairs(lines), ByActThenPlayer);
    var rows := WithPercents(gs, gs);
    assert RowPairs(rows) == KeysOf(gs);
    rows
  }

  /** The line count of act `a` agrees with the grouped-key view of the script. */
  lemma {:induction false} ActLinesAsPairs(lines: seq<Line>, a: int)
    ensures ActLines(lines, a) == CountWhere(Pairs(lines), ActIs(a))
  {
    if |lines| > 0 {
      assert Pairs(lines)[1..] == Pairs(lines[1..]);
      ActLinesAsPairs(lines[1..], a);
    }
  }

  /** Positional view of `WithPercents`: row i carries group i's share. */
  lemma {:induction false} WithPercentsAt(gs: seq<Group<(int, string)>>, table: seq<Group<(int, string)>>, i: nat)
    requires forall j :: 0 <= j < |gs| ==> gs[j] in table && gs[j].size > 0
    requires i < |gs|
    ensures SizeWhere(table, ActIs(gs[i].key.0)) > 0
    ensures WithPercents(gs, table)[i].percent == Percent(gs[i].size, SizeWhere(table, ActIs(gs[i].key.0)))
  {
    ActTotalCoversGroup(table, gs[i]);
    if i > 0 {
      WithPercentsAt(gs[1..], table, i - 1);
    }
  }

  /** Within act `a`, the rows of `WithPercents` add up to the act's groups,
      and each holds its count's share of the act total in `table`. */
  lemma {:induction false} WithPercentsInAct(gs: seq<Group<(int, string)>>, table: seq<Group<(int, string)>>, a: int)
    requires forall i :: 0 <= i < |gs| ==> gs[i] in table && gs[i].size > 0
    ensures SumCount(InAct(WithPercents(gs, table), a)) == SizeWhere(gs, ActIs(a))
    ensures forall r :: r in InAct(WithPercents(gs, table), a) ==>
              SizeWhere(table, ActIs(a)) > 0 && r.percent == Percent(r.count, SizeWhere(table, ActIs(a)))
  {
    if |gs| > 0 {
      var g := gs[0];
      ActTotalCoversGroup(table, g);
      WithPercentsInAct(gs[1..], table, a);
      var rows := WithPercents(gs, table);
      assert rows[1..] == WithPercents(gs[1..], table);
    }
  }

  lemma {:induction false} PercentsAddUp(rows: seq<LineRow>, whole: nat)
    requires whole > 0
    requires forall r :: r in rows ==> r.percent == Percent(r.count, whole)
    ensures SumPercent(rows) == Percent(SumCount(rows), whole)
  {
    if |rows| > 0 {
      assert rows[0] in rows;
      assert forall r :: r in rows[1..] ==> r in rows;
      PercentsAddUp(rows[1..], whole);
      AddShares(rows[0].count as real, SumCount(rows[1..]) as real, whole as real);
    }
  }

  /**
   Percent conservation over any grouped table with non-empty groups: the
   shares computed against the table's own act totals add up to 100 in
   every act that has a group.
   */
  lemma {:induction false} TableSharesAddUp(table: seq<Group<(int, string)>>, a: int)
    requires forall i :: 0 <= i < |table| ==> table[i].size > 0
    ensures SizeWhere(table, ActIs(a)) > 0 ==> SumPercent(InAct(WithPercents(table, table), a)) == 100.0
  {
    var whole := SizeWhere(table, ActIs(a));
    if whole > 0 {
      var block := InAct(WithPercents(table, table), a);
      WithPercentsInAct(table, table, a);
      PercentsAddUp(block, whole);
      WholeShare(whole);
    }
  }

  lemma {:induction false} AddShares(c: real, s: real, w: real)
    requires w > 0.0
    ensures c / w * 100.0 + s / w * 100.0 == (c + s) / w * 100.0
  {
  }

  /** Partition conservation: an act's `LineCount` values add up to the
      number of script lines in that act. */
  lemma {:induction false} SummarizeActTotals(lines: seq<Line>, a: int)
    ensures SumCount(InAct(SummarizeLines(lines), a)) == ActLines(lines, a)
  {
    ByActThenPlayerIsOrder();
    var gs := GroupCount(Pairs(lines), ByActThenPlayer);
    WithPercentsInAct(gs, gs, a);
    GroupCountConserves(Pairs(lines), ByActThenPlayer, ActIs(a));
    ActLinesAsPairs(lines, a);
  }

  /** Each row's `LinePercent` is 100 times its `LineCount` over the number
      of script lines of its act. */
  lemma {:induction false} SummarizePercents(lines: seq<Line>, i: nat)
    requires i < |SummarizeLines(lines)|
    ensures var r := SummarizeLines(lines)[i];
            ActLines(lines, r.act) > 0 && r.percent == Percent(r.count, ActLines(lines, r.act))
  {
    ByActThenPlayerIsOrder();
    var gs := GroupCount(Pairs(lines), ByActThenPlayer);
    var rows := WithPercents(gs, gs);
    WithPercentsAt(gs, gs, i);
    assert rows[i].act == gs[i].key.0;
    GroupCountConserves(Pairs(lines), ByActThenPlayer, ActIs(rows[i].act));
    ActLinesAsPairs(lines, rows[i].act);
  }

  /** Percent conservation: the percentages of an act that has lines add up
      to exactly 100, and an act without lines has no rows. */
  lemma {:induction false} SummarizePercentsAddUp(lines: seq<Line>, a: int)
    ensures ActLines(lines, a) > 0 ==> SumPercent(InAct(SummarizeLines(lines), a)) == 100.0
    ensures ActLines(lines, a) == 0 ==> InAct(SummarizeLines(lines), a) == []
  {
    if ActLines(lines, a) > 0 {
      ActSharesAddUp(lines, a);
    } else {
      EmptyActHasNoRows(lines, a);
    }
  }

  /** The per-act instance of `TableSharesAddUp`: the percentages of an
      act that has lines add up to exactly 100. */
  lemma {:induction false} ActSharesAddUp(lines: seq<Line>, a: int)
    requires ActLines(lines, a) > 0
    ensures SumPercent(InAct(SummarizeLines(lines), a)) == 100.0
  {
    ByActThenPlayerIsOrder();
    var gs := GroupCount(Pairs(lines), ByActThenPlayer);
    assert SummarizeLines(lines) == WithPercents(gs, gs);
    GroupCountConserves(Pairs(lines), ByActThenPlayer, ActIs(a));
    ActLinesAsPairs(lines, a);
    TableSharesAddUp(gs, a);
  }

  lemma {:induction false} WholeShare(w: nat)
    requires w > 0
    ensures Percent(w, w) == 100.0
  {
    var x := w as real;
    assert x / x == 1.0;
  }

  lemma {:induction false} EmptyActHasNoRows(lines: seq<Line>, a: int)
    requires ActLines(lines, a) == 0
    ensures InAct(SummarizeLines(lines), a) == []
  {
    var rows := SummarizeLines(lines);
    var block := InAct(rows, a);
    SummarizeActTotals(lines, a);
    if |block| > 0 {
      assert false;
    }
  }
}

=== FILE: lines.dfy ===
/**
 The tables of the dialogue visualisation.

 A `Line` is one row of the play's script table (its act, scene, speaking
 player and text). A `LineRow` is one row of the aggregated table: an act,
 a player, how many lines the player speaks in that act (`LineCount`) and
 what share of the act that is, in percent (`LinePercent`). Percentages are
 exact reals.
 */
module Lines {
  import opened Seqs

  datatype Line = Line(act: int, scene: int, player: string, text: string)

  datatype LineRow = LineRow(act: int, player: string, count: nat, percent: real)

  /** Sum of the `LineCount` column. */
  function SumCount(rows: seq<LineRow>): nat {
    if |rows| == 0 then 0 else rows[0].count + SumCount(rows[1..])
  }

  /** Sum of the `LinePercent` column. */
  function SumPercent(rows: seq<LineRow>): real {
    if |rows| == 0 then 0.0 else rows[0].percent + SumPercent(rows[1..])
  }

  /** The rows of act `a`, in table order. */
  function InAct(rows: seq<LineRow>, a: int): (r: seq<LineRow>)
    ensures forall x :: x in r <==> x in rows && x.act == a
    ensures forall x {:trigger Count(r, x)} :: Count(r, x) == if x.act == a then Count(rows, x) else 0
    ensures IsSubsequence(r, rows)
  {
    if |rows| == 0 then []
    else
      assert rows == [rows[0]] + rows[1..];
      assert forall x :: x in rows <==> x == rows[0] || x in rows[1..];
      if rows[0].act == a then [rows[0]] + InAct(rows[1..], a) else InAct(rows[1..], a)
  }

  /** No two rows share an (act, player) pair. */
  ghost predicate UniquePairs(rows: seq<LineRow>) {
    forall i, j :: 0 <= i < j < |rows| ==> (rows[i].act, rows[i].player) != (rows[j].act, rows[j].player)
  }

  lemma {:induction false} UniquePairsTail(rows: seq<LineRow>)
    requires UniquePairs(rows) && |rows| > 0
    ensures UniquePairs(rows[1..])
  {
    forall i, j | 0 <= i < j < |rows[1..]|
      ensures (rows[1..][i].act, rows[1..][i].player) != (rows[1..][j].act, rows[1..][j].player)
    {
      assert rows[1..][i] == rows[i + 1] && rows[1..][j] == rows[j + 1];
    }
  }

  lemma {:induction false} SumsOfConcat(a: seq<LineRow>, b: seq<LineRow>)
    ensures SumCount(a + b) == SumCount(a) + SumCount(b)
    ensures SumPercent(a + b) == SumPercent(a) + SumPercent(b)
  {
    if |a| > 0 {
      assert (a + b)[1..] == a[1..] + b;
      SumsOfConcat(a[1..], b);
    } else {
      assert a + b == b;
    }
  }

  lemma {:induction false} InActOfCons(x: LineRow, rest: seq<LineRow>, act: int)
    ensures InAct([x] + rest, act) == if x.act == act then [x] + InAct(rest, act) else InAct(rest, act)
  {
    var xs := [x] + rest;
    assert xs[0] == x && xs[1..] == rest;
  }

  lemma {:induction false} InActOfConcat(a: seq<LineRow>, b: seq<LineRow>, act: int)
    ensures InAct(a + b, act) == InAct(a, act) + InAct(b, act)
  {
    if |a| > 0 {
      var x, tail := a[0], a[1..];
      assert a == [x] + tail;
      assert a + b == [x] + (tail + b);
      InActOfConcat(tail, b, act);
      InActOfCons(x, tail + b, act);
      InActOfCons(x, tail, act);
    } else {
      assert a + b == b;
    }
  }

  /** Selecting an act keeps a table of that act whole and empties a table
      of other acts. */
  lemma {:induction false} InActOfOneAct(rows: seq<LineRow>, b: int, a: int)
    requires forall x :: x in rows ==> x.act == b
    ensures InAct(rows, a) == if a == b then rows else []
  {
    if |rows| > 0 {
      assert rows[0] in rows;
      assert forall x :: x in rows[1..] ==> x in rows;
      InActOfOneAct(rows[1..], b, a);
    }
  }
}

=== FILE: name_case.dfy ===
/**
 `clean_names`: title-cases the `Player` column with Python's `str.title`.

 `str.title` walks the string once: a character that follows a cased
 character is lower-cased, any other character is upper-cased, and
 whether the next character follows a cased one depends on the ORIGINAL
 character. So every run of letters starts with a capital and continues in
 lower case, and a non-letter (a space, an apostrophe, a digit) starts a
 new run: "LADY MACBETH" becomes "Lady Macbeth" and "o'neil" becomes
 "O'Neil". Only the ASCII letters are treated as cased here.
 */
module NameCase {
  import opened Lines

  predicate IsUpper(c: char) {
    'A' <= c <= 'Z'
  }

  predicate IsLower(c: char) {
    'a' <= c <= 'z'
  }

  predicate IsCased(c: char) {
    IsUpper(c) || IsLower(c)
  }

  function ToUpper(c: char): (u: char)
    ensures IsCased(u) == IsCased(c)
    ensures !IsLower(u)
  {
    if IsLower(c) then (c as int - 32) as char else c
  }

  function ToLower(c: char): (l: char)
    ensures IsCased(l) == IsCased(c)
    ensures !IsUpper(l)
  {
    if IsUpper(c) then (c as int + 32) as char else c
  }

  /** The case `str.title` gives the character at index `i` of `s`. */
  function TitledAt(s: string, i: nat): char
    requires i < |s|
  {
    if i > 0 && IsCased(s[i - 1]) then ToLower(s[i]) else ToUpper(s[i])
  }

  /** The title-casing loop, `afterCased` telling whether the character
      before `s` was cased. */
  function TitleFrom(s: string, afterCased: bool): (t: string)
    ensures |t| == |s|
    ensures forall i :: 0 <= i < |s| ==>
              t[i] == if (if i == 0 then afterCased else IsCased(s[i - 1])) then ToLower(s[i]) else ToUpper(s[i])
  {
    if |s| == 0 then ""
    else
      var c := if afterCased then ToLower(s[0]) else ToUpper(s[0]);
      var rest := TitleFrom(s[1..], IsCased(s[0]));
      assert forall i :: 1 <= i < |s| ==> ([c] + rest)[i] == rest[i - 1];
      [c] + rest
  }

  /** Python's `str.title`, on ASCII letters: each character is cased by its
      predecessor in the input, and the length is kept. */
  function Title(s: string): (t: string)
    ensures |t| == |s|
    ensures forall i :: 0 <= i < |s| ==> t[i] == TitledAt(s, i)
  {
    TitleFrom(s, false)
  }

  /** Each word starts with a capital and goes on in lower case; letters stay
      letters and everything else is untouched. */
  lemma {:induction false} TitleWords(s: string)
    ensures var t := Title(s);
            forall i :: 0 <= i < |t| ==>
              && IsCased(t[i]) == IsCased(s[i])
              && (!IsCased(s[i]) ==> t[i] == s[i])
              && ((i == 0 || !IsCased(t[i - 1])) ==> !IsLower(t[i]))
              && (i > 0 && IsCased(t[i - 1]) ==> !IsUpper(t[i]))
  {
  }

  /** Title-casing twice is title-casing once. */
  lemma {:induction false} TitleIdempotent(s: string)
    ensures Title(Title(s)) == Title(s)
  {
    var t := Title(s);
    forall i | 0 <= i < |s| ensures Title(t)[i] == t[i] {
      assert i > 0 ==> IsCased(t[i - 1]) == IsCased(s[i - 1]);
    }
  }

  /** The output table: the same rows with the `Player` column title-cased. */
  function CleanNames(rows: seq<LineRow>): (r: seq<LineRow>)
    ensures |r| == |rows|
    ensures forall i :: 0 <= i < |rows| ==>
              && r[i].act == rows[i].act && r[i].count == rows[i].count && r[i].percent == rows[i].percent
              && |r[i].player| == |rows[i].player|
              && r[i].player == Title(rows[i].player)
  {
    seq(|rows|, i requires 0 <= i < |rows| => rows[i].(player := Title(rows[i].player)))
  }

  /** Cleaning the names twice is cleaning them once. */
  lemma {:induction false} CleanNamesIdempotent(rows: seq<LineRow>)
    ensures CleanNames(CleanNames(rows)) == CleanNames(rows)
  {
    forall i | 0 <= i < |rows| ensures CleanNames(CleanNames(rows))[i] == CleanNames(rows)[i] {
      TitleIdempotent(rows[i].player);
    }
  }
}

=== FILE: orders.dfy ===
/**
 Strict total orders on the keys a table is grouped or sorted by.

 Grouping a table sorts its keys (an act number, a player name, a
 neighbourhood name, a date, or a tuple of these compared column by
 column). This module defines what such an order is, the order on strings
 (code-point lexicographic, a proper prefix first), and the column-by-column
 order on pairs of keys.
 */
module Orders {

  /** `less` is irreflexive, transitive and connects any two distinct values. */
  ghost predicate StrictTotalOrder<K(!new)>(less: (K, K) -> bool) {
    && (forall a :: !less(a, a))
    && (forall a, b, c :: less(a, b) && less(b, c) ==> less(a, c))
    && (forall a, b :: a == b || less(a, b) || less(b, a))
  }

  /** Every earlier element is strictly below every later one. */
  ghost predicate Sorted<K>(ks: seq<K>, less: (K, K) -> bool) {
    forall i, j :: 0 <= i < j < |ks| ==> less(ks[i], ks[j])
  }

  predicate IntLess(a: int, b: int) {
    a < b
  }

  /** Code-point lexicographic order on strings; a proper prefix comes first. */
  predicate StrLess(s: string, t: string) {
    if |s| == 0 then |t| > 0
    else if |t| == 0 then false
    else s[0] < t[0] || (s[0] == t[0] && StrLess(s[1..], t[1..]))
  }

  /** Order on pairs: by the first component, then by the second. */
  function Lex<A(==), B>(first: (A, A) -> bool, second: (B, B) -> bool): ((A, B), (A, B)) -> bool {
    (p: (A, B), q: (A, B)) => first(p.0, q.0) || (p.0 == q.0 && second(p.1, q.1))
  }

  lemma {:induction false} IntLessIsOrder()
    ensures StrictTotalOrder(IntLess)
  {
  }

  lemma {:induction false} StrLessIrreflexive(s: string)
    ensures !StrLess(s, s)
  {
    if |s| > 0 {
      StrLessIrreflexive(s[1..]);
    }
  }

  lemma {:induction false} StrLessTransitive(a: string, b: string, c: string)
    requires StrLess(a, b) && StrLess(b, c)
    ensures StrLess(a, c)
  {
    if |a| > 0 && a[0] == b[0] && b[0] == c[0] {
      StrLessTransitive(a[1..], b[1..], c[1..]);
    }
  }

  lemma {:induction false} StrLessConnected(a: string, b: string)
    ensures a == b || StrLess(a, b) || StrLess(b, a)
  {
    if |a| > 0 && |b| > 0 && a[0] == b[0] {
      StrLessConnected(a[1..], b[1..]);
      if a[1..] == b[1..] {
        assert a == [a[0]] + a[1..] && b == [b[0]] + b[1..];
      }
    }
  }

  lemma {:induction false} StrLessIsOrder()
    ensures StrictTotalOrder(StrLess)
  {
    forall a: string ensures !StrLess(a, a) {
      StrLessIrreflexive(a);
    }
    forall a: string, b: string, c: string | StrLess(a, b) && StrLess(b, c)
      ensures StrLess(a, c)
    {
      StrLessTransitive(a, b, c);
    }
    forall a: string, b: string ensures a == b || StrLess(a, b) || StrLess(b, a) {
      StrLessConnected(a, b);
    }
  }

  lemma {:induction false} LexIsOrder<A(!new), B(!new)>(first: (A, A) -> bool, second: (B, B) -> bool)
    requires StrictTotalOrder(first) && StrictTotalOrder(second)
    ensures StrictTotalOrder(Lex(first, second))
  {
    var less := Lex(first, second);
    forall p: (A, B), q: (A, B), r: (A, B) | less(p, q) && less(q, r)
      ensures less(p, r)
    {
      if first(p.0, q.0) && first(q.0, r.0) {
        assert first(p.0, r.0);
      } else if p.0 == q.0 && q.0 == r.0 {
        assert second(p.1, q.1) && second(q.1, r.1);
      }
    }
    forall p: (A, B), q: (A, B) ensures p == q || less(p, q) || less(q, p) {
    }
  }
}

=== FILE: other_players.dfy ===
/**
 `replace_others`: keeps, in every act, the rows of the five players with
 the most lines over the whole play, and folds every other player of that
 act into one synthetic `OTHER` row.

 The top five are chosen once, from play-wide totals, and the same five
 are used for every act. Ranking follows pandas' `nlargest(5, keep='first')`
 over the per-player totals, whose index is sorted by player name: a higher
 total ranks first, and between equal totals the alphabetically earlier
 name ranks first. The acts are visited in ascending order; within an act
 the kept rows stay in table order and the `OTHER` row comes last. It is
 emitted for every act, with 0 lines and 0 percent when nobody is folded.
 */
module OtherPlayers {
  import opened Orders
  import opened Seqs
  import opened Groups
  import opened Lines

  const OtherLabel: string := "OTHER"

  /** How many players keep their own rows. */
  const TopCount: nat := 5

  /** A player's `LineCount` summed over the whole table. */
  function PlayerTotal(rows: seq<LineRow>, p: string): nat {
    if |rows| == 0 then 0
    else (if rows[0].player == p then rows[0].count else 0) + PlayerTotal(rows[1..], p)
  }

  /** `p` ranks above `q`: more lines in total, or as many and an earlier name. */
  predicate Outranks(rows: seq<LineRow>, p: string, q: string) {
    PlayerTotal(rows, p) > PlayerTotal(rows, q)
    || (PlayerTotal(rows, p) == PlayerTotal(rows, q) && StrLess(p, q))
  }

  function PlayerColumn(rows: seq<LineRow>): seq<string> {
    seq(|rows|, i requires 0 <= i < |rows| => rows[i].player)
  }

  /** The distinct players of the table, sorted by name. */
  function Players(rows: seq<LineRow>): (ps: seq<string>)
    ensures Sorted(ps, StrLess)
    ensures forall p :: p in ps <==> p in PlayerColumn(rows)
  {
    StrLessIsOrder();
    SortedKeys(PlayerColumn(rows), StrLess)
  }

  /** The highest-ranked player among the name-sorted candidates `ps`. */
  function Best(rows: seq<LineRow>, ps: seq<string>): (b: string)
    requires |ps| > 0 && Sorted(ps, StrLess)
    ensures b in ps
    ensures forall q :: q in ps && q != b ==> Outranks(rows, b, q)
  {
    if |ps| == 1 then ps[0]
    else
      var rest := Best(rows, ps[1..]);
      assert forall q :: q in ps ==> q == ps[0] || q in ps[1..];
      assert forall q :: q in ps[1..] ==> StrLess(ps[0], q) by {
        forall q | q in ps[1..] ensures StrLess(ps[0], q) {
          var k :| 0 <= k < |ps[1..]| && ps[1..][k] == q;
          assert ps[k + 1] == q;
        }
      }
      if PlayerTotal(rows, ps[0]) >= PlayerTotal(rows, rest) then ps[0] else rest
  }

  /**
   The `k` highest-ranked players of the name-sorted candidates `ps`: as
   many as there are candidates, up to `k`, each outranking every
   candidate left out.
   */
  function TopK(rows: seq<LineRow>, ps: seq<string>, k: nat): (top: seq<string>)
    requires Sorted(ps, StrLess)
    ensures |top| == if k < |ps| then k else |ps|
    ensures NoDup(top)
    ensures forall p :: p in top ==> p in ps
    ensures forall p, q :: p in top && q in ps && q !in top ==> Outranks(rows, p, q)
    decreases k
  {
    if k == 0 || |ps| == 0 then []
    else
      StrLessIsOrder();
      SortedNoDup(ps, StrLess);
      var b := Best(rows, ps);
      RemoveSorted(ps, b, StrLess);
      var rest := TopK(rows, Remove(ps, b), k - 1);
      assert forall i :: 1 <= i < |[b] + rest| ==> ([b] + rest)[i] == rest[i - 1];
      [b] + rest
  }

  /** The play's top players, ranked once over the whole table. */
  function TopPlayers(rows: seq<LineRow>): (top: seq<string>)
    ensures |top| == if TopCount < |Players(rows)| then TopCount else |Players(rows)|
    ensures NoDup(top)
    ensures forall p :: p in top ==> p in PlayerColumn(rows)
    ensures forall p, q :: p in top && q in PlayerColumn(rows) && q !in top ==> Outranks(rows, p, q)
  {
    TopK(rows, Players(rows), TopCount)
  }

  /** The rows of act `a` whose player is (`inTop`) or is not (`!inTop`) in `top`. */
  function Keep(rows: seq<LineRow>, top: seq<string>, a: int, inTop: bool): (kept: seq<LineRow>)
    ensures forall r :: r in kept <==> r in rows && r.act == a && (r.player in top) == inTop
    ensures forall r {:trigger Count(kept, r)} :: Count(kept, r) == if r.act == a && (r.player in top) == inTop then Count(rows, r) else 0
    ensures IsSubsequence(kept, rows)
  {
    if |rows| == 0 then []
    else
      assert rows == [rows[0]] + rows[1..];
      assert forall x :: x in rows <==> x == rows[0] || x in rows[1..];
      if rows[0].act == a && (rows[0].player in top) == inTop
      then [rows[0]] + Keep(rows[1..], top, a, inTop)
      else Keep(rows[1..], top, a, inTop)
  }

  /** The synthetic row that stands for the players of act `a` outside `top`. */
  function OtherRow(rows: seq<LineRow>, top: seq<string>, a: int): LineRow {
    var others := Keep(rows, top, a, false);
    LineRow(a, OtherLabel, SumCount(others), SumPercent(others))
  }

  /** The output rows of act `a`. */
  function ActBlock(rows: seq<LineRow>, top: seq<string>, a: int): seq<LineRow> {
    Keep(rows, top, a, true) + [OtherRow(rows, top, a)]
  }

  function Blocks(rows: seq<LineRow>, top: seq<string>, acts: seq<int>): seq<LineRow> {
    if |acts| == 0 then []
    else ActBlock(rows, top, acts[0]) + Blocks(rows, top, acts[1..])
  }

  function ActColumn(rows: seq<LineRow>): seq<int> {
    seq(|rows|, i requires 0 <= i < |rows| => rows[i].act)
  }

  /** The distinct acts of the table, ascending. */
  function Acts(rows: seq<LineRow>): (acts: seq<int>)
    ensures Sorted(acts, IntLess)
    ensures forall a :: a in acts <==> a in ActColumn(rows)
  {
    IntLessIsOrder();
    SortedKeys(ActColumn(rows), IntLess)
  }

  function ReplaceOthers(rows: seq<LineRow>): seq<LineRow> {
    Blocks(rows, TopPlayers(rows), Acts(rows))
  }

  // ---------------------------------------------------------------------
  // Properties

  lemma {:induction false} ActBlockIsOneAct(rows: seq<LineRow>, top: seq<string>, b: int, a: int)
    ensures InAct(ActBlock(rows, top, b), a) == if a == b then ActBlock(rows, top, b) else []
  {
    InActOfOneAct(ActBlock(rows, top, b), b, a);
  }

  lemma {:induction false} BlocksInAct(rows: seq<LineRow>, top: seq<string>, acts: seq<int>, a: int)
    requires NoDup(acts)
    ensures InAct(Blocks(rows, top, acts), a) == if a in acts then ActBlock(rows, top, a) else []
  {
    if |acts| > 0 {
      InActOfConcat(ActBlock(rows, top, acts[0]), Blocks(rows, top, acts[1..]), a);
      ActBlockIsOneAct(rows, top, acts[0], a);
      BlocksInAct(rows, top, acts[1..], a);
      assert a == acts[0] ==> a !in acts[1..];
      assert a in acts <==> a == acts[0] || a in acts[1..];
    }
  }

  /** Splitting an act into kept and folded rows loses no lines and no percent. */
  lemma {:induction false} KeepSplitsAct(rows: seq<LineRow>, top: seq<string>, a: int)
    ensures SumCount(Keep(rows, top, a, true)) + SumCount(Keep(rows, top, a, false)) == SumCount(InAct(rows, a))
    ensures SumPercent(Keep(rows, top, a, true)) + SumPercent(Keep(rows, top, a, false)) == SumPercent(InAct(rows, a))
  {
    if |rows| > 0 {
      KeepSplitsAct(rows[1..], top, a);
    }
  }

  /** A kept row of the rest of the table shares its act with the head, so
      not its player. */
  lemma {:induction false} KeptTailPlayers(rows: seq<LineRow>, top: seq<string>, a: int)
    requires UniquePairs(rows) && |rows| > 0 && rows[0].act == a
    ensures rows[0].player !in PlayerColumn(Keep(rows[1..], top, a, true))
  {
    var rest := Keep(rows[1..], top, a, true);
    forall i | 0 <= i < |rest| ensures PlayerColumn(rest)[i] != rows[0].player {
      assert rest[i] in rest;
      var k :| 0 <= k < |rows[1..]| && rows[1..][k] == rest[i];
      assert rows[k + 1] == rest[i];
    }
  }

  lemma {:induction false} PlayerColumnCons(r: LineRow, rows: seq<LineRow>)
    ensures PlayerColumn([r] + rows) == [r.player] + PlayerColumn(rows)
  {
    assert forall i :: 1 <= i <= |rows| ==> ([r] + rows)[i] == rows[i - 1];
  }

  /** With one row per (act, player), the kept rows of an act have distinct players. */
  lemma {:induction false} KeptPlayersDistinct(rows: seq<LineRow>, top: seq<string>, a: int)
    requires UniquePairs(rows)
    ensures NoDup(PlayerColumn(Keep(rows, top, a, true)))
  {
    if |rows| > 0 {
      UniquePairsTail(rows);
      KeptPlayersDistinct(rows[1..], top, a);
      var rest := Keep(rows[1..], top, a, true);
      if rows[0].act == a && rows[0].player in top {
        assert Keep(rows, top, a, true) == [rows[0]] + rest;
        KeptTailPlayers(rows, top, a);
        PlayerColumnCons(rows[0], rest);
        NoDupCons(rows[0].player, PlayerColumn(rest));
      } else {
        assert Keep(rows, top, a, true) == rest;
      }
    }
  }

  /** Within an act of the collapsed table, the rows of the players in
      `top` keep their table order and the act's `OTHER` row comes last,
      carrying exactly what the act's other players had. */
  lemma {:induction false} CollapseShape(rows: seq<LineRow>, top: seq<string>, acts: seq<int>, a: int)
    requires NoDup(acts) && a in acts
    ensures |InAct(Blocks(rows, top, acts), a)| >= 1
    ensures InAct(Blocks(rows, top, acts), a)[..|InAct(Blocks(rows, top, acts), a)| - 1]
         == Keep(rows, top, a, true)
    ensures InAct(Blocks(rows, top, acts), a)[|InAct(Blocks(rows, top, acts), a)| - 1]
         == LineRow(a, OtherLabel, SumCount(Keep(rows, top, a, false)), SumPercent(Keep(rows, top, a, false)))
  {
    BlocksInAct(rows, top, acts, a);
    var block := ActBlock(rows, top, a);
    assert block[..|block| - 1] == Keep(rows, top, a, true);
  }

  /** An act's block holds exactly the act's lines and percent: the kept
      rows plus the `OTHER` row that sums the rest. */
  lemma {:induction false} ActBlockConserves(rows: seq<LineRow>, top: seq<string>, a: int)
    ensures SumCount(ActBlock(rows, top, a)) == SumCount(InAct(rows, a))
    ensures SumPercent(ActBlock(rows, top, a)) == SumPercent(InAct(rows, a))
  {
    KeepSplitsAct(rows, top, a);
    SumsOfConcat(Keep(rows, top, a, true), [OtherRow(rows, top, a)]);
  }

  /** Collapsing around any fixed `top`, over acts covering the table, keeps
      every act's total `LineCount` and total `LinePercent`. */
  lemma {:induction false} CollapseConserves(rows: seq<LineRow>, top: seq<string>, acts: seq<int>, a: int)
    requires NoDup(acts)
    requires a in ActColumn(rows) ==> a in acts
    ensures SumCount(InAct(Blocks(rows, top, acts), a)) == SumCount(InAct(rows, a))
    ensures SumPercent(InAct(Blocks(rows, top, acts), a)) == SumPercent(InAct(rows, a))
  {
    BlocksInAct(rows, top, acts, a);
    if a in acts {
      ActBlockConserves(rows, top, a);
    } else {
      AbsentActIsEmpty(rows, a);
    }
  }

  /** With one row per (act, player), an act of the collapsed table has at
      most one row per player of `top`, plus `OTHER`. */
  lemma {:induction false} CollapseBound(rows: seq<LineRow>, top: seq<string>, acts: seq<int>, a: int)
    requires UniquePairs(rows) && NoDup(acts)
    ensures |InAct(Blocks(rows, top, acts), a)| <= |top| + 1
  {
    BlocksInAct(rows, top, acts, a);
    var kept := Keep(rows, top, a, true);
    KeptPlayersDistinct(rows, top, a);
    forall p | p in PlayerColumn(kept) ensures p in top {
      var i :| 0 <= i < |PlayerColumn(kept)| && PlayerColumn(kept)[i] == p;
      assert kept[i] in kept;
    }
    NoDupBound(PlayerColumn(kept), top);
  }

  /** The rows of act `a` in the output are exactly that act's block, and an
      act absent from the input has none. */
  lemma {:induction false} ReplaceOthersInAct(rows: seq<LineRow>, a: int)
    ensures InAct(ReplaceOthers(rows), a)
         == if a in ActColumn(rows) then ActBlock(rows, TopPlayers(rows), a) else []
  {
    var acts := Acts(rows);
    IntLessIsOrder();
    SortedNoDup(acts, IntLess);
    BlocksInAct(rows, TopPlayers(rows), acts, a);
  }

  /** Rows of the top players keep their place within their act; the `OTHER`
      row comes last and carries exactly what the other players of the act
      had, in lines and in percent. */
  lemma {:induction false} ReplaceOthersShape(rows: seq<LineRow>, a: int)
    requires a in ActColumn(rows)
    ensures |InAct(ReplaceOthers(rows), a)| >= 1
    ensures InAct(ReplaceOthers(rows), a)[..|InAct(ReplaceOthers(rows), a)| - 1]
         == Keep(rows, TopPlayers(rows), a, true)
    ensures InAct(ReplaceOthers(rows), a)[|InAct(ReplaceOthers(rows), a)| - 1]
         == LineRow(a, OtherLabel, SumCount(Keep(rows, TopPlayers(rows), a, false)),
                    SumPercent(Keep(rows, TopPlayers(rows), a, false)))
  {
    var acts := Acts(rows);
    IntLessIsOrder();
    SortedNoDup(acts, IntLess);
    CollapseShape(rows, TopPlayers(rows), acts, a);
  }

  /** Collapsing keeps every act's total `LineCount` and total `LinePercent`. */
  lemma {:induction false} ReplaceOthersConserves(rows: seq<LineRow>, a: int)
    ensures SumCount(InAct(ReplaceOthers(rows), a)) == SumCount(InAct(rows, a))
    ensures SumPercent(InAct(ReplaceOthers(rows), a)) == SumPercent(InAct(rows, a))
  {
    var acts := Acts(rows);
    IntLessIsOrder();
    SortedNoDup(acts, IntLess);
    CollapseConserves(rows, TopPlayers(rows), acts, a);
  }

  lemma {:induction false} AbsentActIsEmpty(rows: seq<LineRow>, a: int)
    requires a !in ActColumn(rows)
    ensures InAct(rows, a) == []
  {
    if |rows| > 0 {
      assert ActColumn(rows)[0] == rows[0].act;
      assert ActColumn(rows[1..]) == ActColumn(rows)[1..];
      AbsentActIsEmpty(rows[1..], a);
    }
  }

  /** With one row per (act, player), as `summarize_lines` produces, every act
      ends with at most six rows: five players and `OTHER`. */
  lemma {:induction false} ReplaceOthersBound(rows: seq<LineRow>, a: int)
    requires UniquePairs(rows)
    ensures |InAct(ReplaceOthers(rows), a)| <= TopCount + 1
  {
    var acts := Acts(rows);
    IntLessIsOrder();
    SortedNoDup(acts, IntLess);
    CollapseBound(rows, TopPlayers(rows), acts, a);
  }

  lemma {:induction false} ActBlockActs(rows: seq<LineRow>, top: seq<string>, b: int)
    ensures forall r :: r in ActBlock(rows, top, b) ==> r.act == b
  {
    var kept := Keep(rows, top, b, true);
    assert forall r :: r in ActBlock(rows, top, b) ==> r in kept || r == OtherRow(rows, top, b);
  }

  lemma {:induction false} BlocksActs(rows: seq<LineRow>, top: seq<string>, acts: seq<int>, r: LineRow)
    requires r in Blocks(rows, top, acts)
    ensures r.act in acts
  {
    var first := ActBlock(rows, top, acts[0]);
    if r in first {
      assert r.act == acts[0];
    } else {
      BlocksActs(rows, top, acts[1..], r);
    }
  }

  /** Rows are grouped by act, acts in ascending order. */
  ghost predicate ActsAscending(rows: seq<LineRow>) {
    forall i, j :: 0 <= i < j < |rows| ==> rows[i].act <= rows[j].act
  }

  /** One act's rows followed by ascending rows of later acts are ascending. */
  lemma {:induction false} AscendingAfterAct(first: seq<LineRow>, rest: seq<LineRow>, b: int)
    requires forall r :: r in first ==> r.act == b
    requires forall r :: r in rest ==> b < r.act
    requires ActsAscending(rest)
    ensures ActsAscending(first + rest)
  {
    var out := first + rest;
    forall i, j | 0 <= i < j < |out| ensures out[i].act <= out[j].act {
      if i < |first| {
        assert out[i] == first[i] && first[i] in first;
        if j < |first| {
          assert out[j] == first[j] && first[j] in first;
        } else {
          assert out[j] == rest[j - |first|] && rest[j - |first|] in rest;
        }
      } else {
        assert out[i] == rest[i - |first|] && out[j] == rest[j - |first|];
      }
    }
  }

  lemma {:induction false} BlocksOrdered(rows: seq<LineRow>, top: seq<string>, acts: seq<int>)
    requires Sorted(acts, IntLess)
    ensures ActsAscending(Blocks(rows, top, acts))
  {
    if |acts| > 0 {
      var rest := Blocks(rows, top, acts[1..]);
      assert Sorted(acts[1..], IntLess) by {
        forall x, y | 0 <= x < y < |acts[1..]| ensures IntLess(acts[1..][x], acts[1..][y]) {
          assert acts[1..][x] == acts[x + 1] && acts[1..][y] == acts[y + 1];
        }
      }
      BlocksOrdered(rows, top, acts[1..]);
      ActBlockActs(rows, top, acts[0]);
      forall r | r in rest ensures acts[0] < r.act {
        BlocksActs(rows, top, acts[1..], r);
        var k :| 0 <= k < |acts[1..]| && acts[1..][k] == r.act;
        assert acts[k + 1] == r.act;
      }
      AscendingAfterAct(ActBlock(rows, top, acts[0]), rest, acts[0]);
    }
  }

  /** The output lists the acts in ascending order. */
  lemma {:induction false} ReplaceOthersOrdered(rows: seq<LineRow>)
    ensures ActsAscending(ReplaceOthers(rows))
  {
    var top := TopPlayers(rows);
    var acts := Acts(rows);
    BlocksOrdered(rows, top, acts);
    assert ReplaceOthers(rows) == Blocks(rows, top, acts);
  }
}

=== FILE: plantings.dfy ===
/**
 The tree-planting table and its first two preprocessing steps.

 A `Tree` is one row of the planting table: the neighbourhood
 (`Arrond_Nom`) and the planting date (`Date_Plantation`, a day ordinal).
 `filter_years` keeps the rows planted within an inclusive range of years;
 `summarize_yearly_counts` counts the rows of every (neighbourhood, date)
 pair into `Counts`.
 */
module Plantings {
  import opened Orders
  import opened Seqs
  import opened Groups
  import opened Calendar

  datatype Tree = Tree(arrond: string, date: int)

  /**
   One row of the summarized table. Despite the name, rows are counted per
   planting date: `date` is a day ordinal, not a year, since the grouping
   is on the full `Date_Plantation`.
   */
  datatype YearlyCount = YearlyCount(arrond: string, date: int, counts: nat)

  predicate InYears(t: Tree, start: int, end: int) {
    start <= YearOf(t.date) && YearOf(t.date) <= end
  }

  /** The rows planted in years `start` to `end`, both included, in table order. */
  function FilterYears(trees: seq<Tree>, start: int, end: int): (r: seq<Tree>)
    ensures forall t :: t in r ==> InYears(t, start, end)
    ensures forall t :: multiset(r)[t] == if InYears(t, start, end) then multiset(trees)[t] else 0
    ensures IsSubsequence(r, trees)
  {
    if |trees| == 0 then []
    else
      assert trees == [trees[0]] + trees[1..];
      var rest := FilterYears(trees[1..], start, end);
      if InYears(trees[0], start, end) then [trees[0]] + rest else rest
  }

  /** A row passes the year filter exactly when its day lies between
      January 1st of `start` and January 1st of `end + 1`. */
  lemma {:induction false} FilterYearsByDays(trees: seq<Tree>, start: int, end: int, t: Tree)
    ensures t in FilterYears(trees, start, end)
        <==> t in trees && YearStart(start) <= t.date < YearStart(end + 1)
  {
    YearRangeAsDays(t.date, start, end);
    var r := FilterYears(trees, start, end);
    assert t in r <==> multiset(r)[t] > 0;
    assert t in trees <==> multiset(trees)[t] > 0;
  }

  function PairOf(t: Tree): (string, int) {
    (t.arrond, t.date)
  }

  function Pairs(trees: seq<Tree>): seq<(string, int)> {
    seq(|trees|, i requires 0 <= i < |trees| => PairOf(trees[i]))
  }

  function RowPairs(rows: seq<YearlyCount>): seq<(string, int)> {
    seq(|rows|, i requires 0 <= i < |rows| => (rows[i].arrond, rows[i].date))
  }

  /** Group keys compare by neighbourhood name, then by date. */
  const ByArrondThenDate: ((string, int), (string, int)) -> bool := Lex(StrLess, IntLess)

  lemma {:induction false} ByArrondThenDateIsOrder()
    ensures StrictTotalOrder(ByArrondThenDate)
  {
    IntLessIsOrder();
    StrLessIsOrder();
    LexIsOrder(StrLess, IntLess);
  }

  function ToRows(gs: seq<Group<(string, int)>>): (rows: seq<YearlyCount>)
    ensures |rows| == |gs|
    ensures forall i :: 0 <= i < |rows| ==>
              (rows[i].arrond, rows[i].date) == gs[i].key && rows[i].counts == gs[i].size
  {
    seq(|gs|, i requires 0 <= i < |gs| => YearlyCount(gs[i].key.0, gs[i].key.1, gs[i].size))
  }

  /**
   One row per distinct (neighbourhood, date) pair, in ascending order of
   the pair, whose `Counts` is the number of trees with that pair.
   */
  function SummarizeYearlyCounts(trees: seq<Tree>): (rows: seq<YearlyCount>)
    ensures Sorted(RowPairs(rows), ByArrondThenDate)
    ensures forall k :: k in RowPairs(rows) <==> k in Pairs(trees)
    ensures forall i :: 0 <= i < |rows| ==>
              rows[i].counts == Count(Pairs(trees), (rows[i].arrond, rows[i].date)) && rows[i].counts >= 1
  {
    ByArrondThenDateIsOrder();
    var gs := GroupCount(Pairs(trees), ByArrondThenDate);
    var rows := ToRows(gs);
    assert RowPairs(rows) == KeysOf(gs);
    rows
  }

  function TotalCounts(rows: seq<YearlyCount>): nat {
    if |rows| == 0 then 0 else rows[0].counts + TotalCounts(rows[1..])
  }

  lemma {:induction false} TotalOfRows(gs: seq<Group<(string, int)>>)
    ensures TotalCounts(ToRows(gs)) == SizeWhere(gs, (k: (string, int)) => true)
  {
    if |gs| > 0 {
      assert ToRows(gs)[1..] == ToRows(gs[1..]);
      TotalOfRows(gs[1..]);
    }
  }

  /** The `Counts` column adds up to the number of trees. */
  lemma {:induction false} SummarizeYearlyCountsTotal(trees: seq<Tree>)
    ensures TotalCounts(SummarizeYearlyCounts(trees)) == |trees|
  {
    ByArrondThenDateIsOrder();
    var all := (k: (string, int)) => true;
    var gs := GroupCount(Pairs(trees), ByArrondThenDate);
    TotalOfRows(gs);
    GroupCountConserves(Pairs(trees), ByArrondThenDate, all);
    CountWhereAll(Pairs(trees), all);
  }
}

=== FILE: results.dfy ===
/** The outcome of an operation that can fail. */
module Results {
  datatype Result<+T, +E> = Success(value: T) | Failure(error: E)
}

=== FILE: seqs.dfy ===
/**
 Facts about sequences used by every table operation: occurrence counts,
 duplicate-freedom, order-preserving selection, and extremes.
 */
module Seqs {
  import opened Orders

  /** Number of occurrences of `k` in `xs`. */
  function Count<K(==)>(xs: seq<K>, k: K): (n: nat)
    ensures n == multiset(xs)[k]
    ensures n <= |xs|
  {
    if |xs| == 0 then 0
    else
      assert xs == [xs[0]] + xs[1..];
      (if xs[0] == k then 1 else 0) + Count(xs[1..], k)
  }

  ghost predicate NoDup<K>(xs: seq<K>) {
    forall i, j :: 0 <= i < j < |xs| ==> xs[i] != xs[j]
  }

  lemma {:induction false} SortedNoDup<K(!new)>(ks: seq<K>, less: (K, K) -> bool)
    requires StrictTotalOrder(less) && Sorted(ks, less)
    ensures NoDup(ks)
  {
  }

  lemma {:induction false} NoDupCons<K>(x: K, xs: seq<K>)
    requires NoDup(xs) && x !in xs
    ensures NoDup([x] + xs)
  {
    assert forall i :: 1 <= i < |xs| + 1 ==> ([x] + xs)[i] == xs[i - 1];
  }

  /**
   `a` can be obtained from `b` by deleting elements: it keeps the
   relative order of what it keeps.
   */
  ghost predicate IsSubsequence<T>(a: seq<T>, b: seq<T>)
    decreases |b|
  {
    if |b| == 0 then |a| == 0
    else (|a| > 0 && a[0] == b[0] && IsSubsequence(a[1..], b[1..])) || IsSubsequence(a, b[1..])
  }

  /** Number of elements of `xs` that satisfy `P`. */
  function CountWhere<K>(xs: seq<K>, P: K -> bool): (n: nat)
    ensures n <= |xs|
  {
    if |xs| == 0 then 0
    else (if P(xs[0]) then 1 else 0) + CountWhere(xs[1..], P)
  }

  lemma {:induction false} CountWhereAll<K>(xs: seq<K>, P: K -> bool)
    requires forall x :: P(x)
    ensures CountWhere(xs, P) == |xs|
  {
    if |xs| > 0 {
      CountWhereAll(xs[1..], P);
    }
  }

  function Min(xs: seq<int>): (m: int)
    requires |xs| > 0
    ensures m in xs
    ensures forall x :: x in xs ==> m <= x
  {
    if |xs| == 1 then xs[0]
    else
      var rest := Min(xs[1..]);
      assert forall x :: x in xs ==> x == xs[0] || x in xs[1..];
      if xs[0] <= rest then xs[0] else rest
  }

  function Max(xs: seq<int>): (m: int)
    requires |xs| > 0
    ensures m in xs
    ensures forall x :: x in xs ==> x <= m
  {
    if |xs| == 1 then xs[0]
    else
      var rest := Max(xs[1..]);
      assert forall x :: x in xs ==> x == xs[0] || x in xs[1..];
      if xs[0] >= rest then xs[0] else rest
  }

  /** Sequences with the same elements have the same extremes. */
  lemma {:induction false} SameElementsSameExtremes(xs: seq<int>, ys: seq<int>)
    requires |xs| > 0
    requires forall x :: x in xs <==> x in ys
    ensures |ys| > 0 && Min(xs) == Min(ys) && Max(xs) == Max(ys)
  {
    var x0 := xs[0];
    assert x0 in xs;
    assert x0 in ys;
  }

  /** `xs` without any occurrence of `x`, the rest in order. */
  function Remove<T(==,!new)>(xs: seq<T>, x: T): (r: seq<T>)
    ensures forall y :: y in r <==> y in xs && y != x
    ensures x !in xs ==> r == xs
    ensures x in xs && NoDup(xs) ==> |r| == |xs| - 1
  {
    if |xs| == 0 then []
    else
      var rest := Remove(xs[1..], x);
      assert forall y :: y in xs <==> y == xs[0] || y in xs[1..];
      assert xs[0] == x && NoDup(xs) ==> x !in xs[1..];
      assert NoDup(xs) ==> NoDup(xs[1..]);
      if xs[0] == x then rest else [xs[0]] + rest
  }

  lemma {:induction false} RemoveSorted<T(!new)>(xs: seq<T>, x: T, less: (T, T) -> bool)
    requires Sorted(xs, less)
    ensures Sorted(Remove(xs, x), less)
  {
    if |xs| > 0 {
      RemoveSorted(xs[1..], x, less);
      var rest := Remove(xs[1..], x);
      if xs[0] != x {
        var r := [xs[0]] + rest;
        forall i, j | 0 <= i < j < |r| ensures less(r[i], r[j]) {
          if i == 0 {
            assert r[j] in xs[1..];
            var k :| 0 <= k < |xs[1..]| && xs[1..][k] == r[j];
            assert xs[k + 1] == r[j];
          } else {
            assert r[i] == rest[i - 1] && r[j] == rest[j - 1];
          }
        }
      }
    }
  }

  /** A duplicate-free sequence drawn from `ys` is no longer than `ys`. */
  lemma {:induction false} NoDupBound<T>(xs: seq<T>, ys: seq<T>)
    requires NoDup(xs)
    requires forall x :: x in xs ==> x in ys
    ensures |xs| <= |ys|
    decreases |ys|
  {
    if |xs| > 0 {
      assert xs[0] in xs;
      var j :| 0 <= j < |ys| && ys[j] == xs[0];
      var rest := ys[..j] + ys[j + 1..];
      assert ys == ys[..j] + [ys[j]] + ys[j + 1..];
      forall x | x in xs[1..] ensures x in rest {
        assert x != xs[0];
        assert x in xs;
        assert x in ys;
        var k :| 0 <= k < |ys| && ys[k] == x;
        if k < j {
          assert rest[k] == x;
        } else {
          assert rest[k - 1] == x;
        }
      }
      NoDupBound(xs[1..], rest);
    }
  }
}
